=== FILE: README.md ===
# Fleet rental app — a Dafny model of its screen logic

The app is a React Native client for renters of a vehicle fleet. This project models the logic of its screens, which decides what the app shows and sends:

- **Location**: the trip-tracking screen. It starts and stops a geolocation watch, posts every position sample to the server, ends the trip on the server, and handles the Back button with its confirm dialog.
- **Home** and **Booking**: the 24-hour to 12-hour time formatter `convertTo12HourFormat`, which both screens define with the same text. Also:
  - the Booking status filter and which rows can be pressed;
  - the 'N/A' and 0 display fallbacks;
  - the guards that stop a fetch when there is no renter id.
- **Report**: the incident form. This covers the picker and switch handlers, and the validation, payload and reset of `handleSubmit`.
- **Login**: `handleLogin`, with the role check and the error-message decision table.
- **AuthContext**: the session store, with `login` and `logout`.

## How it is modelled

Each handler is a pure function from a state and an input to a new state and a sequence of effects. The effects are:

- HTTP requests;
- alerts;
- navigation;
- registering and clearing geolocation watches.

Everything the platform or the network decides arrives as an input:

- whether a request succeeded;
- the permission result;
- the watch id;
- the position samples and the clock reading.

Event sequences are folded by `Run`.

JavaScript semantics are spelled out in the modules `Js` and `JsText`:

- null and undefined are the single value `None`;
- truthiness (`""`, `0`, null);
- `||` and the `!== undefined && !== null ? x : d` idiom;
- `%`, which truncates toward zero;
- `String.prototype.split` on one character;
- `parseInt(s, 10)`: leading JS whitespace, an optional sign, the longest digit prefix, and NaN as `None`;
- the decimal text of an integer.

The formatter is defined once, in `Clock`. The methods `Home.ConvertTo12HourFormat` and `Booking.ConvertTo12HourFormat` transcribe each screen's copy statement by statement. Each is proved equal to the `Clock` definition on every input, so the two copies agree with each other.

What the trip screen does:

- The trip screen stores no server trip id. It sends the start-trip POST for every sample, and it sends the end-trip PUT keyed by the rental's `rentedVehicleId`. There is no separate update-trip call.
- A failed end-trip call is only logged, never shown to the user.
- The end-trip PUT is issued after the watch is cleared, as written.

Two places where the code evidently does not do what was meant are modelled both ways, through a policy parameter:

- `Report.ResetPolicy`: `AsWritten` or `EmergencyToFalse`;
- `Location.ExitPolicy`: `AsWritten` or `StopFirst`.

Every general lemma holds for both policies. The as-written policy exhibits the problem, and the corrected one is proved free of it (see Findings).

## Model

| member | source | states |
|---|---|---|
| Js.JsRem | src/screens/Booking.js:46 | JavaScript `%` by a positive divisor: the result lies strictly between -n and n, equals the Euclidean remainder for a non-negative dividend, and is never positive for a non-positive one |
| JsText.Split | src/screens/Booking.js:38 | `split(':')` yields one piece more than there are separators, and no piece holds a separator |
| JsText.JoinSplit | src/screens/Booking.js:38 | `split(':')` loses nothing: joining the pieces with ':' gives back the string |
| JsText.SplitJoin | src/screens/Booking.js:38 | splitting a ':'-join of separator-free pieces gives back exactly those pieces |
| JsText.ParseIntOfNatToString | src/screens/Booking.js:41 | parsing the decimal text of a number gives the number back |
| JsText.DigitsValueOfNatToString | src/screens/Booking.js:48 | the decimal text printed for a number denotes that number |
| JsText.NumberText | src/screens/Booking.js:48 | how the hour is printed in the template: "NaN" for NaN, a '-' for negatives, otherwise the digits with no leading zero |
| JsText.TrimStart | src/screens/Booking.js:41 | the leading-whitespace step of `parseInt`: exactly the leading JS white space is removed, so the result is a suffix of the input, everything cut off is white space, and the result does not start with white space |
| JsText.ParseInt | src/screens/Booking.js:41 | `parseInt(s, 10)`: a non-empty all-digit string gives its decimal value, and an empty or all-white-space string gives NaN |
| JsText.DigitPrefix | src/screens/Booking.js:41 | the digit-collecting step of `parseInt`: the longest all-digit prefix |
| Clock.ConvertTo12HourFormat | src/screens/Booking.js:35-49 | the formatter returns 'Invalid Time' if and only if the string is missing, empty, or not three ':'-separated fields |
| Clock.ExampleNoSeconds | src/screens/Booking.js:38-39 | "14:30" has no seconds field, so it yields 'Invalid Time' |
| Clock.WellShapedFormat | src/screens/Booking.js:41-48 | on a well-shaped string, reading the output from the right: " PM" exactly when the parsed hour is at least 12 (else " AM", NaN included), then the minutes field verbatim, one ':', then the display hour, and nothing more; the seconds play no part |
| Clock.DisplayHourRange | src/screens/Booking.js:46-47 | for a non-negative hour the shown hour is in 1..12, and it is 12 exactly for multiples of 12 (0 and 12 included) |
| Clock.DigitHourFormat | src/screens/Booking.js:41-48 | for "hh:mm:ss" with a digit hour, the output is the clock-face hour, ':', mm, and AM/PM by hour at least 12, given independently of the formatter |
| Clock.HourRoundTrip | src/screens/Booking.js:41-48 | read back independently, the 12-hour text of a digit hour below 24 gives the original hour, so no two hours of a day print alike |
| Clock.ClockFaceInverse | src/screens/Booking.js:43-47 | within a day, the clock-face hour with its suffix determines the 24-hour value (12 AM is 0, 12 PM is 12) |
| Clock.ReadBack | src/screens/Booking.js:48 | a text "d:mm AM" / "d:mm PM" with d in 1..12 reads back as the 24-hour value of d and the suffix |
| Booking.ConvertTo12HourFormat | src/screens/Booking.js:35-49 | the Booking screen's copy, statement by statement, returns the shared definition's result on every input |
| Home.ConvertTo12HourFormat | src/screens/Home.js:20-34 | the Home screen's copy returns the shared definition's result on every input, and so agrees with the Booking copy |
| Booking.RowTime | src/screens/Booking.js:120 | a rental row's time column reads 'Invalid Time' exactly when its pickup time is missing, empty or not three ':'-separated fields |
| Home.TripTime | src/screens/Home.js:119 | a recent-trip row's time column reads 'Invalid Time' exactly when its pickup time is missing, empty or not three ':'-separated fields |
| Session.Init | src/context/AuthContext.js:12 | nobody is logged in at first |
| Session.Login | src/context/AuthContext.js:15-17 | after `login(u)` the store holds exactly `u` |
| Session.Logout | src/context/AuthContext.js:20-22 | after `logout()` the store is empty |
| Session.LogoutIdempotent | src/context/AuthContext.js:20-22 | logging out twice is logging out once |
| Session.LoginLogoutIsInit | src/context/AuthContext.js:12-22 | login followed by logout returns to the initial store, from any store |
| Session.LoginReplaces | src/context/AuthContext.js:15-17 | a later login replaces an earlier user |
| Session.ReplayLast | src/context/AuthContext.js:12-22 | after any history of logins and logouts, the store reflects only the last operation (or is unchanged if there was none) |
| Session.RenterToFetch | src/screens/Home.js:56 | `user && user.renterId`: a renter id is produced exactly when a user with a truthy (present, non-zero) renter id is logged in, and it is that id |
| Session.HandleLogout | src/screens/Home.js:48-52 | the Logout button empties the store, then alerts "Logout Successful." and opens Login (the same handler is on Booking and Report) |
| Login.HandleLogin | src/screens/Login.js:15-28 | the first effect is always the POST with the entered email and password and role 'renter' |
| Login.CaughtMessage | src/screens/Login.js:45-63 | the catch block's alert: the 401 message or the fixed fallback, "Error: " with the message or the status text for other statuses, the fixed network text without a response, and "Error: " with the error message otherwise |
| Login.AdmittedLogsIn | src/screens/Login.js:32-40 | status 200 with role 'renter' stores exactly the reply's eight user fields, confirms, and opens Home, in that order |
| Login.OtherRoleDenied | src/screens/Login.js:37-43 | status 200 with another role only raises the access-denied alert |
| Login.OtherStatusIgnored | src/screens/Login.js:32-44 | a resolved reply with a status other than 200 does nothing after the POST |
| Login.LoginOnlyWhenAdmitted | src/screens/Login.js:15-63 | `login` is called, and Home opened, if and only if the reply is status 200 with role 'renter'; what is stored is the reply's user; every caught error raises exactly one alert and nothing else |
| Login.SessionAfterLogin | src/screens/Login.js:32-63 | as seen by the session store: an admitted reply leaves the reply's user logged in, and every other outcome leaves the store untouched |
| Booking.Init | src/screens/Booking.js:14-15 | the filter starts as 'Upcoming' with no rows |
| Booking.HandleStatusChange | src/screens/Booking.js:68-70 | a status press sets the filter to exactly that status and keeps the rows |
| Booking.StatusIsLatestPress | src/screens/Booking.js:68-70 | after any series of presses, the filter is 'Upcoming' if there were none, and otherwise the status of the last press |
| Booking.FocusFetch | src/screens/Booking.js:18-31 | the rentals are requested exactly when a user with a truthy renter id is present, for that renter and the current filter |
| Booking.OnFetchSettled | src/screens/Booking.js:23-29 | a successful fetch replaces the rows, and a failed one changes nothing |
| Booking.RowPress | src/screens/Booking.js:113-124 | a row press opens Location with that row's rental if and only if the filter is 'Upcoming' |
| Booking.PressableRows | src/screens/Booking.js:63-64 | under 'Upcoming' every row leads to its own rental; under any other filter no row reacts |
| Booking.FirstNameText | src/screens/Booking.js:88 | the first name is shown when stored, and 'N/A' when there is no user or the field is null or undefined |
| Booking.LastNameText | src/screens/Booking.js:89 | the same fallback for the last name |
| Home.Init | src/screens/Home.js:17 | no recent trips at first |
| Home.RentedCarsShown | src/screens/Home.js:89 | the rented-cars counter is the stored value, or 0 when there is no user or the value is null or undefined |
| Home.UpcomingRentShown | src/screens/Home.js:95 | the same fallback for the upcoming-rent counter |
| Home.RecentTripsFetch | src/screens/Home.js:55-71 | recent trips are requested exactly when a user with a truthy renter id is present, for that id |
| Home.OnRecentTripsSettled | src/screens/Home.js:61-69 | success replaces the list; failure keeps it and raises the single "Failed to fetch recent trips" alert |
| Report.Init | src/screens/Report.js:17-25 | the form mounts with the flag false, an empty nature and note, both pickers closed, and the date and the time each set from its own clock reading taken at mount |
| Report.HandleSwitchChange | src/screens/Report.js:28-30 | the switch sets the emergency flag to its value and changes nothing else |
| Report.OnChangeDate | src/screens/Report.js:33-43 | a dismissal closes both pickers and keeps the date; a selection stores the date and closes only the date picker |
| Report.OnChangeTime | src/screens/Report.js:46-55 | a dismissal closes both pickers and keeps the time; a selection stores the time and closes only the time picker |
| Report.PickerEventsClose | src/screens/Report.js:33-55 | after a picker event its own picker is closed; a dismissal closes both; only a selection changes a value, and only that picker's value |
| Report.ResetAfterSuccess | src/screens/Report.js:94-97 | after a success the nature and note are null, and the flag is null as written (false when corrected); nothing else changes |
| Report.NatureCheckedFirst | src/screens/Report.js:59-62 | a falsy nature alerts 'Please select the nature of the issue.' whatever the note, and sends nothing |
| Report.NoteCheckedSecond | src/screens/Report.js:64-67 | with a nature chosen, a falsy note alerts 'Please add a note.' and sends nothing |
| Report.HandleSubmit | src/screens/Report.js:58-102 | a submission issues one or two effects; it posts if and only if nature and note are truthy and the flag is a boolean, and posts at most once; it throws the TypeError if and only if the form is complete but the flag is null; the form changes only after a successful POST |
| Report.ValidSubmission | src/screens/Report.js:69-101 | a complete form whose flag is a boolean is posted once with the user's renter id, the nature and note verbatim, and the flag as "true"/"false"; success resets the form and failure keeps it, each followed by its single alert |
| Report.ResubmitRejected | src/screens/Report.js:59-97 | submitting again right after a success is stopped by the nature check, so nothing is sent twice |
| Report.ResubmitAfterSuccessThrows | src/screens/Report.js:78-97 | as written: success, then nature and note filled in with the switch left alone, then submit, throws at `isEmergency.toString()` before the POST; no report is sent and no alert is shown |
| Report.NeverThrowsWhenReset | src/screens/Report.js:58-102 | with the flag reset to false, no sequence of form events ever reaches that TypeError, and the flag stays a boolean |
| Report.StepKeepsFlag | src/screens/Report.js:28-97 | with the corrected reset, every single form event keeps the flag a boolean and raises no TypeError |
| Report.CompleteFormIsSent | src/screens/Report.js:58-92 | with the corrected reset, a complete form is always posted |
| Location.Init | src/screens/Location.js:14-18 | the screen opens stopped, with no watch id, no location and none of its own watches registered |
| Location.SpeedOrZero | src/screens/Location.js:81 | a null or zero speed is sent as 0, any other speed as itself |
| Location.TripUpdateFor | src/screens/Location.js:74-88 | the start-trip body: the renter's id and names, the sample's coordinates, the speed or 0, zero totals, the clock reading, "Ongoing", and the rental's vehicle and rented-vehicle ids |
| Location.PermissionGranted | src/screens/Location.js:22-25 | only GRANTED counts as permission: UNAVAILABLE, DENIED, LIMITED and BLOCKED all refuse |
| Location.StartTracking | src/screens/Location.js:42-59 | one watch is registered, its id is stored, and the trip is marked started |
| Location.StopTracking | src/screens/Location.js:62-71 | a stored watch is cleared once, and the watch id and location are forgotten with an alert; the trip is always marked stopped and the end-trip PUT keyed by the rented-vehicle id is sent |
| Location.HandleTripToggle | src/screens/Location.js:28-39 | when stopped: ask for permission, then start only on GRANTED, otherwise only alert; when started: stop |
| Location.WatchCallback | src/screens/Location.js:44-48 | a sample sets the location while mounted and sends one start-trip POST for it; with no user the callback throws after storing the location |
| Location.GoBack | src/screens/Location.js:102-120 | during a trip Back only opens the confirm dialog; otherwise it leaves at once |
| Location.EndTripChosen | src/screens/Location.js:109-114 | "End Trip" leaves the screen with navigation as the last effect; as written it does only that, and when corrected it stops the trip first |
| Location.Step | src/screens/Location.js:89-120 | the start-trip and end-trip replies change nothing; samples of a watch that is not registered are ignored; after the screen is left, only samples of a still-registered watch do anything; "Continue Trip" (line 108) closes the dialog and changes nothing else; while the dialog is up, presses other than its two buttons do nothing, and the two buttons do nothing while it is down |
| Location.RefusedToggle | src/screens/Location.js:22-35 | any permission result but GRANTED leaves the stopped screen unchanged, with no watch and no server call, only the "Permission Denied" alert |
| Location.GrantedToggleStarts | src/screens/Location.js:29-58 | a granted toggle registers exactly one watch, stores its id, starts the trip and calls no server endpoint |
| Location.ToggleStops | src/screens/Location.js:36-71 | a toggle during a trip clears the running watch once, forgets watch and location, stops the trip and sends the end-trip PUT |
| Location.ReachableKeepsInv | src/screens/Location.js:57-69 | in every state reached from the opened screen, while mounted: a watch id is stored iff the trip runs, it is the only watch this screen registered and has not cleared, and a location is shown only during a trip |
| Location.RunKeepsInv | src/screens/Location.js:57-69 | any run of events from a state with that invariant keeps it, under either policy, and the corrected policy also leaves no watch behind a screen left through its own Back button |
| Location.TogglesAlternate | src/screens/Location.js:28-71 | granted toggles alternate start and stop: after an odd number the trip has flipped and runs on the last toggle's watch |
| Location.TogglesFromInit | src/screens/Location.js:14-71 | from the opened screen, the trip runs exactly after an odd number of granted toggles, and a watch id is stored exactly then |
| Location.SamplesPostInOrder | src/screens/Location.js:43-88 | n samples of the running watch send n start-trip POSTs, in order, each with its own sample's coordinates, and the last sample is the one shown |
| Location.RepliesOnlyLogged | src/screens/Location.js:89-97 | the replies to start-trip and end-trip, success or failure, change nothing and issue nothing |
| Location.BackButton | src/screens/Location.js:102-120 | Back on a stopped screen leaves; during a trip it only opens the dialog, and "Continue Trip" returns to the same state |
| Location.StepTracksWatches | src/screens/Location.js:43-65 | one event changes the screen's set of watches exactly as its register and clear effects change the platform's; from a state keeping the invariant, it clears only live watches and registers only new ones |
| Location.RunBalancesWatches | src/screens/Location.js:43-65 | over any run from a state keeping the invariant, the watches still registered are exactly those the run's effects leave live, every clear names a live watch, every registration a new one, and so the number held is the number registered less the number cleared |
| Location.EndTripLeaksWatch | src/screens/Location.js:109-114 | as written: start, Back, "End Trip" leaves with the watch still registered, never cleared, and no end-trip PUT; a later sample still posts start-trip |
| Location.EndTripStopsFirst | src/screens/Location.js:109-114 | corrected: "End Trip" clears the watch, sends the end-trip PUT, and only then leaves, with no watch registered |
| Location.LeftScreenIsQuiet | src/screens/Location.js:109-114 | corrected: once the screen is left through its own Back button and "End Trip", no later event changes anything or issues any effect |

## Left out

- Rendering, styles and icons are not modelled. They are presentation only.
- The navigation stack (`App.js`) is not modelled, and with it the platform's own back exits: the Android hardware back button and the iOS edge swipe pop the Location screen without calling `goBack`. The screen registers no unmount cleanup (it imports `useEffect` but never calls it), so leaving that way during a trip keeps the watch registered and posting start-trip, under either exit policy. The model's only way off the screen is its "< Back" button, and the `StopFirst` guarantees (`RunKeepsInv`, `LeftScreenIsQuiet`, `EndTripStopsFirst`) cover only that path.
- HTTP transport (axios, URLs, headers, JSON on the wire) is not modelled. Each call is an effect, and whether it succeeded is an input.
- Console logging is not modelled. The `Content-Type` header of the login POST is not modelled either.
- The geolocation and permission libraries are not modelled. Their answers (the permission result, the opaque watch id, the samples) are inputs. The error callback of `watchPosition` only logs, and the watch options are not modelled.
- Latitude, longitude and speed are modelled as reals that are only passed through. Floating point, NaN and -0 speeds are not modelled.
- `new Date().toISOString()` is not modelled: the clock reading arrives as a string inside each sample.
- In the Report body the time is the picker's instant, not its "HH:MM:SS" text. `Date.prototype.toTimeString`, `toISOString` and the date formatting `formatDate` on Booking and Home are not modelled.
- Location.State.watches: a watch leaked by an earlier visit stays live during later visits and is outside a screen's `watches`. Each opening of the screen starts from `Init()` with none of its own watches; samples from a leaked watch keep posting start-trip, as `EndTripLeaksWatch` shows for the visit that leaked it.
- Async interleavings are not modelled: each handler runs atomically. This includes a second toggle press while the permission request is pending, React's stale closures, and the order in which replies arrive.
- The confirm dialog is modal: the model ignores other presses while it is up.
- `carUpdateId` and `permissionGranted` on the Location screen are never written, so they are not part of the state.
- The Location screen needs its `rental` route parameter: without one, the first render already fails at `rental.car_model`.
- A login reply whose body is a primitive (a string or a number) rather than null or an object is not modelled.
- `parseInt` on digit strings whose value exceeds 2^53 rounds to a double in JavaScript; the model keeps exact integers. For the hour "99999999999999999999", JavaScript computes 1e20 and shows 4:00 PM, while the model shows 3:00 PM. Above about 1.8e308 `parseInt` returns Infinity, `Infinity % 12` is NaN, and the screen shows "NaN:mm PM", while the model still prints a clock hour.
- `src/screens/Profile.js` and `metro.config.js` are not part of this model. Profile's only logic calls a `logout` it never defines.
- Js.JsRem: the contract gives the bound and the sign of the result, and its exact value for a non-negative dividend. It does not state the value for a negative dividend, which only the definition gives.

## Findings

| source | as written | input that shows it | evidently intended | confidence | as-written member | corrected member |
|---|---|---|---|---|---|---|
| src/screens/Report.js:97 | a successful submission sets `isEmergency` to null. The next submission evaluates `isEmergency.toString()` (line 78) outside the try block, which throws a TypeError: no report is sent and no alert is shown | submit a complete form successfully, choose a nature, type a note, submit again without touching the switch | reset the switch to its initial value, false | medium; not executed | Report.ResubmitAfterSuccessThrows | Report.NeverThrowsWhenReset |
| src/screens/Location.js:111-113 | "End Trip" in the Back dialog only navigates back. The watch stays registered and keeps posting start-trip samples after the screen is gone, and the end-trip PUT is never sent | grant permission and start a trip, press Back, choose "End Trip" | stop tracking (clear the watch and send end-trip) before leaving | medium; not executed | Location.EndTripLeaksWatch | Location.EndTripStopsFirst |

=== FILE: booking.dfy ===
/** The Booking screen: the list of the renter's rentals filtered by status,
    the rows that lead to trip tracking, and the name header. */
module Booking {
  import opened Js
  import opened JsText
  import Clock
  import Session

  /** A rental row as the rental-status endpoint returns it; the Location
      screen receives the same record as its route parameter. */
  datatype Rental = Rental(
    rentedVehicleId: int,
    vehicleId: int,
    carModel: string,
    pickupDate: Option<string>,
    pickupTime: Option<string>)

  const Upcoming := "Upcoming"

  /** The screen's state: the status filter and the rows last fetched. */
  datatype Screen = Screen(selectedStatus: string, rentals: seq<Rental>)

  function Init(): (s: Screen)
    ensures s.selectedStatus == Upcoming && s.rentals == []
  {
    Screen(Upcoming, [])
  }

  /** `handleStatusChange(status)`: the filter becomes exactly `status`;
      the rows stay until the refetch answers. */
  function HandleStatusChange(s: Screen, status: string): (s': Screen)
    ensures s'.selectedStatus == status
    ensures s'.rentals == s.rentals
  {
    s.(selectedStatus := status)
  }

  /** The filter after a series of status-button presses. */
  function StatusAfter(s: Screen, presses: seq<string>): Screen
    decreases |presses|
  {
    if |presses| == 0 then s else StatusAfter(HandleStatusChange(s, presses[0]), presses[1..])
  }

  /** The filter is 'Upcoming' until the first press and then always the
      status of the latest press; earlier presses leave no trace. */
  lemma {:induction false} StatusIsLatestPress(presses: seq<string>)
    ensures StatusAfter(Init(), presses).selectedStatus
            == if |presses| == 0 then Upcoming else presses[|presses| - 1]
  {
    StatusAfterFrom(Init(), presses);
  }

  lemma {:induction false} StatusAfterFrom(s: Screen, presses: seq<string>)
    ensures StatusAfter(s, presses).selectedStatus
            == if |presses| == 0 then s.selectedStatus else presses[|presses| - 1]
    decreases |presses|
  {
    if |presses| > 0 {
      StatusAfterFrom(HandleStatusChange(s, presses[0]), presses[1..]);
      if |presses| > 1 {
        assert presses[1..][|presses| - 2] == presses[|presses| - 1];
      }
    }
  }

  // ---------------------------------------------------------------------
  // Fetching

  /** The GET the focus effect issues. */
  datatype Fetch = FetchRentalStatus(renterId: int, status: string)

  /** On focus, and whenever the user or the filter changes, the rentals of
      the current filter are requested, provided a user with a truthy
      renter id is logged in. */
  function FocusFetch(user: Option<Session.User>, s: Screen): (f: Option<Fetch>)
    ensures f.Some? <==> user.Some? && IntTruthy(user.value.renterId)
    ensures f.Some? ==> user.value.renterId == Some(f.value.renterId) && f.value.status == s.selectedStatus
  {
    match Session.RenterToFetch(user)
    case Some(id) => Some(FetchRentalStatus(id, s.selectedStatus))
    case None => None
  }

  /** The answer of the GET: the rows are replaced on success; a failure is
      only logged. */
  function OnFetchSettled(s: Screen, ok: bool, data: seq<Rental>): (s': Screen)
    ensures s'.selectedStatus == s.selectedStatus
    ensures ok ==> s'.rentals == data
    ensures !ok ==> s' == s
  {
    if ok then s.(rentals := data) else s
  }

  // ---------------------------------------------------------------------
  // Rows

  /** Pressing a row opens the Location screen with that rental. */
  datatype Navigation = ToLocation(rental: Rental)

  /** Under 'Upcoming' each row is a touchable that calls
      `handleRentalClick(rental)`; under any other filter the row is a plain
      view and a press does nothing. */
  function RowPress(s: Screen, i: nat): (n: Option<Navigation>)
    requires i < |s.rentals|
    ensures n.Some? <==> s.selectedStatus == Upcoming
    ensures n.Some? ==> n.value.rental == s.rentals[i]
  {
    if s.selectedStatus == Upcoming then Some(ToLocation(s.rentals[i])) else None
  }

  /** The rows that can be pressed are exactly all rows under 'Upcoming'
      and none otherwise, and each leads to its own rental. */
  lemma PressableRows(s: Screen)
    ensures s.selectedStatus == Upcoming ==>
              forall i :: 0 <= i < |s.rentals| ==> RowPress(s, i) == Some(ToLocation(s.rentals[i]))
    ensures s.selectedStatus != Upcoming ==>
              forall i :: 0 <= i < |s.rentals| ==> RowPress(s, i).None?
  {
  }

  /** The time column of a row: 'Invalid Time' exactly when the stored
      pickup time is missing, empty or not "hh:mm:ss"-shaped. */
  function RowTime(r: Rental): (t: string)
    ensures t == Clock.InvalidTime <==> !Clock.WellShaped(r.pickupTime)
  {
    Clock.ConvertTo12HourFormat(r.pickupTime)
  }

  // ---------------------------------------------------------------------
  // Header

  /** The first-name text of the header: 'N/A' when there is no user or the
      field is null/undefined, the stored value otherwise. */
  function FirstNameText(user: Option<Session.User>): (t: string)
    ensures user.None? || user.value.renterFname.None? ==> t == "N/A"
    ensures user.Some? && user.value.renterFname.Some? ==> t == user.value.renterFname.value
  {
    if user.Some? then Coalesce(user.value.renterFname, "N/A") else "N/A"
  }

  /** The last-name text of the header, with the same fallback. */
  function LastNameText(user: Option<Session.User>): (t: string)
    ensures user.None? || user.value.renterLname.None? ==> t == "N/A"
    ensures user.Some? && user.value.renterLname.Some? ==> t == user.value.renterLname.value
  {
    if user.Some? then Coalesce(user.value.renterLname, "N/A") else "N/A"
  }

  // ---------------------------------------------------------------------
  // This screen's copy of the time formatter

  /** `convertTo12HourFormat` as written on this screen, step by step. It
      agrees with the one shared definition on every input. */
  method ConvertTo12HourFormat(timeString: Option<string>) returns (r: string)
    ensures r == Clock.ConvertTo12HourFormat(timeString)
  {
    if !StrTruthy(timeString) {
      return "Invalid Time";
    }
    var timeParts := Split(timeString.value, ':');
    if |timeParts| != 3 {
      return "Invalid Time";
    }
    var hours := ParseInt(timeParts[0]);
    var minutes := timeParts[1];
    var ampm := if hours.Some? && hours.value >= 12 then "PM" else "AM";
    if hours.Some? {
      hours := Some(JsRem(hours.value, 12));
    }
    if hours == Some(0) {
      hours := Some(12);
    }
    r := NumberText(hours) + ":" + minutes + " " + ampm;
  }
}

=== FILE: clock.dfy ===
/** The 24-hour to 12-hour time formatter `convertTo12HourFormat`, which the
    Home and Booking screens each define with the same text. It is defined
    once here; `Home.ConvertTo12HourFormat` and
    `Booking.ConvertTo12HourFormat` transcribe the two copies and are proved
    equal to it. */
module Clock {
  import opened Js
  import opened JsText

  const InvalidTime := "Invalid Time"

  /** `hours % 12`, then 0 shown as 12; NaN stays NaN. */
  function DisplayHour(hours: Option<int>): Option<int>
  {
    match hours
    case None => None
    case Some(h) => var m := JsRem(h, 12); Some(if m == 0 then 12 else m)
  }

  /** `hours >= 12 ? 'PM' : 'AM'`; NaN compares false, so it is AM. */
  function Meridiem(hours: Option<int>): string
  {
    if hours.Some? && hours.value >= 12 then "PM" else "AM"
  }

  /** A time string is accepted when it is truthy and splits on ':' into
      exactly three fields (hours, minutes, seconds). */
  predicate WellShaped(timeString: Option<string>)
  {
    StrTruthy(timeString) && |Split(timeString.value, ':')| == 3
  }

  /** `convertTo12HourFormat(timeString)`: 'Invalid Time' exactly for an
      ill-shaped input; otherwise the display hour, ':', the minutes field
      and the suffix. */
  function ConvertTo12HourFormat(timeString: Option<string>): (r: string)
    ensures r == InvalidTime <==> !WellShaped(timeString)
  {
    if !StrTruthy(timeString) then InvalidTime
    else
      var parts := Split(timeString.value, ':');
      if |parts| != 3 then InvalidTime
      else
        var hours := ParseInt(parts[0]);
        var h := NumberText(DisplayHour(hours));
        var out := h + ":" + parts[1] + " " + Meridiem(hours);
        ColonTextIsValid(out, |h|);
        out
  }

  /** A text with a ':' after its hour part is never 'Invalid Time', which
      holds no ':'. */
  lemma ColonTextIsValid(out: string, k: nat)
    requires k < |out| && out[k] == ':'
    ensures out != InvalidTime
  {
    assert forall i :: 0 <= i < |InvalidTime| ==> InvalidTime[i] != ':';
  }

  // ---------------------------------------------------------------------
  // Properties

  /** `out` reads, from the right: the suffix " PM" exactly when `hours`
      is at least 12 and " AM" otherwise (NaN included), the minutes text
      `m` verbatim, one ':', and the hour text `h`, and nothing else. */
  predicate ReadsAs(out: string, h: string, m: string, hours: Option<int>)
  {
    && |out| == |h| + |m| + 4
    && (out[|out| - 3..] == " PM" <==> hours.Some? && hours.value >= 12)
    && (out[|out| - 3..] == " AM" <==> !(hours.Some? && hours.value >= 12))
    && out[|out| - 3 - |m|..|out| - 3] == m
    && out[|out| - 4 - |m|] == ':'
    && out[..|out| - 4 - |m|] == h
  }

  /** On a well-shaped string the output reads as the display hour of the
      parsed first field, ':', the minutes field verbatim and the suffix
      chosen by the parsed hour. The seconds field plays no part. */
  lemma WellShapedFormat(timeString: Option<string>)
    requires WellShaped(timeString)
    ensures var parts := Split(timeString.value, ':');
            var hours := ParseInt(parts[0]);
            ReadsAs(ConvertTo12HourFormat(timeString), NumberText(DisplayHour(hours)), parts[1], hours)
  {
    var parts := Split(timeString.value, ':');
    var hours := ParseInt(parts[0]);
    var h := NumberText(DisplayHour(hours));
    var out := ConvertTo12HourFormat(timeString);
    assert out == h + ":" + parts[1] + " " + Meridiem(hours);
    HourTextLayout(out, h, parts[1], hours);
  }

  /** The three-character suffix is " PM" for an hour of at least 12 and
      " AM" otherwise. */
  lemma SuffixText(hours: Option<int>)
    ensures " " + Meridiem(hours) == (if hours.Some? && hours.value >= 12 then " PM" else " AM")
  {
  }

  /** The layout of `h:m AM` / `h:m PM` with the suffix chosen by `hours`. */
  lemma HourTextLayout(out: string, h: string, m: string, hours: Option<int>)
    requires out == h + ":" + m + " " + Meridiem(hours)
    ensures ReadsAs(out, h, m, hours)
  {
    TextLayout(out, h, m, Meridiem(hours));
    SuffixText(hours);
    assert " PM"[1] != " AM"[1];
    assert out[|out| - 3..] == (if hours.Some? && hours.value >= 12 then " PM" else " AM");
  }

  /** Where each piece of `h:m suffix` sits, counted from the right. */
  lemma TextLayout(out: string, h: string, m: string, suffix: string)
    requires |suffix| == 2 && out == h + ":" + m + " " + suffix
    ensures |out| == |h| + |m| + 4
    ensures out[|out| - 3..] == " " + suffix
    ensures out[|out| - 3 - |m|..|out| - 3] == m
    ensures out[|out| - 4 - |m|] == ':'
    ensures out[..|out| - 4 - |m|] == h
  {
    assert out == (h + ":") + (m + (" " + suffix));
  }

  /** For a non-negative hour the displayed hour lies in 1..12, and it is 12
      exactly for the hours that are multiples of 12 (0 and 12 included). */
  lemma DisplayHourRange(h: int)
    requires h >= 0
    ensures DisplayHour(Some(h)).Some?
    ensures 1 <= DisplayHour(Some(h)).value <= 12
    ensures DisplayHour(Some(h)).value == 12 <==> h % 12 == 0
    ensures h % 12 != 0 ==> DisplayHour(Some(h)).value == h % 12
  {
  }

  /** The clock-face hour of a non-negative hour: 0 and 12 read 12. */
  function ClockFace(h: nat): int
  {
    if h % 12 == 0 then 12 else h % 12
  }

  function SuffixFor(h: int): string
  {
    if h >= 12 then "PM" else "AM"
  }

  /** The output in terms of the three fields of a well-shaped string. */
  lemma ConvertFields(t: string, a: string, b: string, c: string)
    requires t != "" && Split(t, ':') == [a, b, c]
    ensures ConvertTo12HourFormat(Some(t)) == NumberText(DisplayHour(ParseInt(a))) + ":" + b + " " + Meridiem(ParseInt(a))
  {
  }

  /** The 12-hour form of an "hh:mm:ss" string whose hour field is decimal
      digits: hours 0 and 12 show as 12, the minutes are copied, the seconds
      are dropped, and the suffix is PM from hour 12 on. */
  lemma DigitHourFormat(t: string, hh: string, mm: string, ss: string)
    requires t == hh + ":" + mm + ":" + ss
    requires |hh| > 0 && AllDigits(hh)
    requires ':' !in mm && ':' !in ss
    ensures ConvertTo12HourFormat(Some(t))
            == NatToString(ClockFace(DigitsValue(hh))) + ":" + mm + " " + SuffixFor(DigitsValue(hh))
  {
    NoColonInDigits(hh);
    ThreeFields(hh, mm, ss);
    assert ParseInt(hh) == Some(DigitsValue(hh));
    ConvertFields(t, hh, mm, ss);
  }

  lemma NoColonInDigits(s: string)
    requires AllDigits(s)
    ensures ':' !in s
  {
    forall i | 0 <= i < |s| ensures s[i] != ':' {
      assert IsDigit(s[i]);
    }
  }

  /** Splitting "hh:mm:ss" with ':'-free fields yields the three fields. */
  lemma ThreeFields(hh: string, mm: string, ss: string)
    requires ':' !in hh && ':' !in mm && ':' !in ss
    ensures Split(hh + ":" + mm + ":" + ss, ':') == [hh, mm, ss]
  {
    SplitThree(hh, mm, ss, ':');
    assert hh + [':'] + mm + [':'] + ss == hh + ":" + mm + ":" + ss;
  }

  // ---------------------------------------------------------------------
  // Reading a 12-hour text back

  /** The 24-hour value of a 12-hour clock reading: 12 AM is 0, 12 PM is 12. */
  function To24Hour(displayHour: int, pm: bool): int
  {
    displayHour % 12 + (if pm then 12 else 0)
  }

  /** Reads the hour back from a formatter output "h:mm AM" / "h:mm PM",
      independently of how the formatter computed it. */
  function HourOf12HourText(text: string): Option<int>
  {
    var parts := Split(text, ':');
    if |parts| != 2 || |text| < 3 then None
    else
      match ParseInt(parts[0])
      case None => None
      case Some(d) =>
        if 1 <= d <= 12 then Some(To24Hour(d, text[|text| - 3..] == " PM")) else None
  }

  /** Reading back any text of the shape "d:mm AM" / "d:mm PM" with d in
      1..12 recovers the 24-hour value of d and the suffix. */
  lemma ReadBack(d: int, mm: string, suffix: string)
    requires 1 <= d <= 12 && ':' !in mm && (suffix == "AM" || suffix == "PM")
    ensures HourOf12HourText(NatToString(d) + ":" + mm + " " + suffix) == Some(To24Hour(d, suffix == "PM"))
  {
    var n := NatToString(d);
    var tail := mm + " " + suffix;
    var text := n + ":" + mm + " " + suffix;
    NoColonInSuffix(mm, suffix);
    NoColonInDigits(n);
    SplitTwo(n, tail, ':');
    assert text == n + [':'] + tail;
    ParseIntOfNatToString(d);
    SuffixOf(n, mm, suffix);
    ReadParts(text, n, tail, d);
  }

  lemma NoColonInSuffix(mm: string, suffix: string)
    requires ':' !in mm && (suffix == "AM" || suffix == "PM")
    ensures ':' !in mm + " " + suffix
  {
    var tail := mm + " " + suffix;
    forall i | 0 <= i < |tail| ensures tail[i] != ':' {
      if i < |mm| {
        assert tail[i] == mm[i];
      } else {
        assert tail[i] == (" " + suffix)[i - |mm|];
      }
    }
  }

  lemma ReadParts(text: string, a: string, b: string, d: int)
    requires Split(text, ':') == [a, b] && |text| >= 3
    requires ParseInt(a) == Some(d) && 1 <= d <= 12
    ensures HourOf12HourText(text) == Some(To24Hour(d, text[|text| - 3..] == " PM"))
  {
  }

  lemma SuffixOf(n: string, mm: string, suffix: string)
    requires suffix == "AM" || suffix == "PM"
    ensures var text := n + ":" + mm + " " + suffix;
            |text| >= 3 && (text[|text| - 3..] == " PM" <==> suffix == "PM")
  {
    var text := n + ":" + mm + " " + suffix;
    assert text[|text| - 3..] == " " + suffix;
    assert (" " + suffix)[1..] == suffix;
  }

  /** Round trip: for an hour field of digits with value below 24, the
      12-hour text reads back as the original hour. Hence the formatter
      tells all 24 hours of the day apart. */
  lemma HourRoundTrip(t: string, hh: string, mm: string, ss: string)
    requires t == hh + ":" + mm + ":" + ss
    requires |hh| > 0 && AllDigits(hh) && DigitsValue(hh) < 24
    requires ':' !in mm && ':' !in ss
    ensures HourOf12HourText(ConvertTo12HourFormat(Some(t))) == Some(DigitsValue(hh))
  {
    var h := DigitsValue(hh);
    var out := ConvertTo12HourFormat(Some(t));
    DigitHourFormat(t, hh, mm, ss);
    ClockFaceInverse(h);
    ReadBack(ClockFace(h), mm, SuffixFor(h));
    assert out == NatToString(ClockFace(h)) + ":" + mm + " " + SuffixFor(h);
  }

  /** Over one day, the clock-face hour and the suffix determine the hour. */
  lemma ClockFaceInverse(h: nat)
    requires h < 24
    ensures 1 <= ClockFace(h) <= 12
    ensures To24Hour(ClockFace(h), SuffixFor(h) == "PM") == h
  {
  }

  /** "14:30" has two fields only, so it is rejected. */
  lemma ExampleNoSeconds()
    ensures ConvertTo12HourFormat(Some("14:30")) == InvalidTime
  {
    assert "14:30" == "14" + [':'] + "30";
    SplitTwo("14", "30", ':');
  }
}

=== FILE: home.dfy ===
/** The Home screen: the trip-overview counters and the recent trips. */
module Home {
  import opened Js
  import opened JsText
  import Clock
  import Session

  /** A recent-trip row as the recent-trips endpoint returns it. */
  datatype Trip = Trip(carModel: string, pickupDate: Option<string>, pickupTime: Option<string>)

  datatype Screen = Screen(recentTrips: seq<Trip>)

  function Init(): (s: Screen)
    ensures s.recentTrips == []
  {
    Screen([])
  }

  /** The "Rented Cars" counter: the user's `rentedVehicleCount`, or 0 when
      there is no user or the field is null/undefined. */
  function RentedCarsShown(user: Option<Session.User>): (n: int)
    ensures user.None? || user.value.rentedVehicleCount.None? ==> n == 0
    ensures user.Some? && user.value.rentedVehicleCount.Some? ==> n == user.value.rentedVehicleCount.value
  {
    if user.Some? then Coalesce(user.value.rentedVehicleCount, 0) else 0
  }

  /** The "Upcoming Rent" counter, with the same fallback to 0. */
  function UpcomingRentShown(user: Option<Session.User>): (n: int)
    ensures user.None? || user.value.upcomingRentCount.None? ==> n == 0
    ensures user.Some? && user.value.upcomingRentCount.Some? ==> n == user.value.upcomingRentCount.value
  {
    if user.Some? then Coalesce(user.value.upcomingRentCount, 0) else 0
  }

  /** When the user changes, the recent trips of the user's renter id are
      requested, but only when a user with a truthy renter id is present. */
  function RecentTripsFetch(user: Option<Session.User>): (id: Option<int>)
    ensures id.Some? <==> user.Some? && IntTruthy(user.value.renterId)
    ensures id.Some? ==> user.value.renterId == Some(id.value)
  {
    Session.RenterToFetch(user)
  }

  datatype Effect = Alert(title: string, message: string)

  /** The answer of the recent-trips GET: the list is replaced on success;
      on failure the list stays and one alert is raised. */
  function OnRecentTripsSettled(s: Screen, ok: bool, data: seq<Trip>): (r: (Screen, seq<Effect>))
    ensures ok ==> r.0.recentTrips == data && r.1 == []
    ensures !ok ==> r.0 == s && r.1 == [Alert("Error", "Failed to fetch recent trips")]
  {
    if ok then (Screen(data), []) else (s, [Alert("Error", "Failed to fetch recent trips")])
  }

  /** The time column of a recent-trip row: 'Invalid Time' exactly when
      the stored pickup time is missing, empty or not "hh:mm:ss"-shaped. */
  function TripTime(t: Trip): (text: string)
    ensures text == Clock.InvalidTime <==> !Clock.WellShaped(t.pickupTime)
  {
    Clock.ConvertTo12HourFormat(t.pickupTime)
  }

  /** `convertTo12HourFormat` as written on this screen, step by step. It
      agrees with the one shared definition, and so with the Booking
      screen's copy, on every input. */
  method ConvertTo12HourFormat(timeString: Option<string>) returns (r: string)
    ensures r == Clock.ConvertTo12HourFormat(timeString)
  {
    if !StrTruthy(timeString) {
      return "Invalid Time";
    }
    var timeParts := Split(timeString.value, ':');
    if |timeParts| != 3 {
      return "Invalid Time";
    }
    var hours := ParseInt(timeParts[0]);
    var minutes := timeParts[1];
    var ampm := if hours.Some? && hours.value >= 12 then "PM" else "AM";
    if hours.Some? {
      hours := Some(JsRem(hours.value, 12));
    }
    if hours == Some(0) {
      hours := Some(12);
    }
    r := NumberText(hours) + ":" + minutes + " " + ampm;
  }
}

=== FILE: js.dfy ===
/** The small part of JavaScript value semantics the screens rely on:
    null/undefined, truthiness, the `||` fallback and the `%` operator. */
module Js {

  /** A JavaScript value that may be `null` or `undefined`. The screens
      never distinguish the two (every test is `x !== undefined && x !== null`,
      `x?.f` or plain truthiness), so both are `None`. */
  datatype Option<+T> = None | Some(value: T)

  /** Truthiness of a possibly-missing string: null, undefined and "" are falsy. */
  predicate StrTruthy(s: Option<string>)
  {
    s.Some? && s.value != ""
  }

  /** Truthiness of a possibly-missing number: null, undefined and 0 are falsy. */
  predicate IntTruthy(n: Option<int>)
  {
    n.Some? && n.value != 0
  }

  /** `s || fallback` for a possibly-missing string. */
  function StrOr(s: Option<string>, fallback: string): (r: string)
    ensures StrTruthy(s) ==> r == s.value
    ensures !StrTruthy(s) ==> r == fallback
  {
    if s.Some? && s.value != "" then s.value else fallback
  }

  /** `x !== undefined && x !== null ? x : fallback`. */
  function Coalesce<T>(x: Option<T>, fallback: T): (r: T)
    ensures x.Some? ==> r == x.value
    ensures x.None? ==> r == fallback
  {
    match x
    case Some(v) => v
    case None => fallback
  }

  /** JavaScript `a % n` on integral numbers: the remainder truncates toward
      zero, so it takes the sign of the dividend (Dafny's `%` is Euclidean).
      A result of -0 is represented by 0; JavaScript's `-0 === 0` holds. */
  function JsRem(a: int, n: int): (r: int)
    requires n > 0
    ensures -n < r < n
    ensures a >= 0 ==> r == a % n
    ensures a <= 0 ==> r <= 0
  {
    if a >= 0 then a % n else -((-a) % n)
  }
}

=== FILE: jstext.dfy ===
/** String operations of JavaScript used by the time formatter:
    `String.prototype.split` with a one-character separator, `parseInt(s, 10)`
    and the conversion of an integral Number to its decimal text. */
module JsText {
  import opened Js

  // ---------------------------------------------------------------------
  // split / join

  /** `s.split(sep)` for a one-character separator: the pieces between
      consecutive separators, so there is always one more piece than there
      are separators, and "" splits into [""]. */
  function Split(s: string, sep: char): (r: seq<string>)
    ensures |r| == Occurrences(s, sep) + 1
    ensures forall i :: 0 <= i < |r| ==> sep !in r[i]
  {
    if |s| == 0 then [""]
    else
      var rest := Split(s[1..], sep);
      if s[0] == sep then [""] + rest
      else [[s[0]] + rest[0]] + rest[1..]
  }

  /** Number of occurrences of `c` in `s`. */
  function Occurrences(s: string, c: char): nat
  {
    if |s| == 0 then 0
    else (if s[0] == c then 1 else 0) + Occurrences(s[1..], c)
  }

  /** `pieces.join(sep)`. */
  function Join(pieces: seq<string>, sep: char): string
  {
    if |pieces| == 0 then ""
    else if |pieces| == 1 then pieces[0]
    else pieces[0] + [sep] + Join(pieces[1..], sep)
  }

  /** Joining the pieces of a split with the same separator gives back the
      original string: split loses nothing but the separators. */
  lemma {:induction false} JoinSplit(s: string, sep: char)
    ensures Join(Split(s, sep), sep) == s
  {
    if |s| == 0 {
    } else {
      var rest := Split(s[1..], sep);
      JoinSplit(s[1..], sep);
      if s[0] == sep {
        assert Split(s, sep) == [""] + rest;
        assert ([""] + rest)[1..] == rest;
        assert s == [sep] + s[1..];
      } else {
        assert Split(s, sep) == [[s[0]] + rest[0]] + rest[1..];
        JoinExtendsFirst(s[0], rest, sep);
        assert s == [s[0]] + s[1..];
      }
    }
  }

  /** Putting a character in front of the first piece puts it in front of
      the join. */
  lemma JoinExtendsFirst(c: char, pieces: seq<string>, sep: char)
    requires |pieces| >= 1
    ensures Join([[c] + pieces[0]] + pieces[1..], sep) == [c] + Join(pieces, sep)
  {
    var r := [[c] + pieces[0]] + pieces[1..];
    if |pieces| > 1 {
      assert r[1..] == pieces[1..];
    }
  }

  /** Splitting a join of separator-free pieces gives back the pieces. */
  lemma {:induction false} SplitJoin(pieces: seq<string>, sep: char)
    requires |pieces| >= 1
    requires forall i :: 0 <= i < |pieces| ==> sep !in pieces[i]
    ensures Split(Join(pieces, sep), sep) == pieces
  {
    if |pieces| == 1 {
      SplitNoSeparator(pieces[0], sep);
    } else {
      SplitJoin(pieces[1..], sep);
      SplitPrefix(pieces[0], Join(pieces[1..], sep), sep);
      assert pieces == [pieces[0]] + pieces[1..];
    }
  }

  lemma {:induction false} SplitNoSeparator(s: string, sep: char)
    requires sep !in s
    ensures Split(s, sep) == [s]
  {
    if |s| > 0 {
      SplitNoSeparator(s[1..], sep);
      assert s == [s[0]] + s[1..];
    }
  }

  /** Splitting `p + sep + t` with `p` separator-free puts `p` first and
      continues with the pieces of `t`. */
  lemma {:induction false} SplitPrefix(p: string, t: string, sep: char)
    requires sep !in p
    ensures Split(p + [sep] + t, sep) == [p] + Split(t, sep)
  {
    if |p| == 0 {
      assert p + [sep] + t == [sep] + t;
      assert ([sep] + t)[1..] == t;
    } else {
      var s := p + [sep] + t;
      assert s[1..] == p[1..] + [sep] + t;
      assert s[0] == p[0];
      SplitPrefix(p[1..], t, sep);
      assert [p[0]] + p[1..] == p;
    }
  }

  /** Two separator-free pieces joined by the separator split back apart. */
  lemma SplitTwo(a: string, b: string, sep: char)
    requires sep !in a && sep !in b
    ensures Split(a + [sep] + b, sep) == [a, b]
  {
    SplitNoSeparator(b, sep);
    SplitPrefix(a, b, sep);
  }

  /** Three separator-free pieces joined by the separator split back apart. */
  lemma SplitThree(a: string, b: string, c: string, sep: char)
    requires sep !in a && sep !in b && sep !in c
    ensures Split(a + [sep] + b + [sep] + c, sep) == [a, b, c]
  {
    var tail := b + [sep] + c;
    SplitTwo(b, c, sep);
    SplitPrefixOf(a, tail, [b, c], sep);
    assert a + [sep] + tail == a + [sep] + b + [sep] + c;
  }

  lemma SplitPrefixOf(p: string, t: string, pieces: seq<string>, sep: char)
    requires sep !in p
    requires Split(t, sep) == pieces
    ensures Split(p + [sep] + t, sep) == [p] + pieces
  {
    SplitPrefix(p, t, sep);
  }

  // ---------------------------------------------------------------------
  // decimal digits

  predicate IsDigit(c: char)
  {
    '0' <= c <= '9'
  }

  predicate AllDigits(s: string)
  {
    forall i :: 0 <= i < |s| ==> IsDigit(s[i])
  }

  function DigitValue(c: char): nat
    requires IsDigit(c)
  {
    (c as int) - ('0' as int)
  }

  function DigitChar(d: nat): (c: char)
    requires d < 10
    ensures IsDigit(c) && DigitValue(c) == d
  {
    ('0' as int + d) as char
  }

  /** The value of a string of decimal digits, most significant first. */
  function DigitsValue(s: string): nat
    requires AllDigits(s)
  {
    if |s| == 0 then 0
    else DigitsValue(s[..|s| - 1]) * 10 + DigitValue(s[|s| - 1])
  }

  /** The decimal text of a natural number, without leading zeros. */
  function NatToString(n: nat): (r: string)
    ensures |r| >= 1 && AllDigits(r)
    ensures |r| > 1 ==> r[0] != '0'
  {
    if n < 10 then [DigitChar(n)]
    else NatToString(n / 10) + [DigitChar(n % 10)]
  }

  /** Reading back the decimal text of `n` gives `n`. */
  lemma {:induction false} DigitsValueOfNatToString(n: nat)
    ensures DigitsValue(NatToString(n)) == n
  {
    var s := NatToString(n);
    if n >= 10 {
      DigitsValueOfNatToString(n / 10);
      assert s[..|s| - 1] == NatToString(n / 10);
    }
  }

  /** JavaScript's `${n}` for an integral Number of magnitude below 1e21,
      which covers the display hours the formatter prints; `None` is NaN.
      From 1e21 on JavaScript switches to exponent form ("1e+21"). */
  function NumberText(n: Option<int>): (r: string)
    ensures n.None? ==> r == "NaN"
    ensures n.Some? && n.value >= 0 ==> r == NatToString(n.value)
    ensures n.Some? && n.value < 0 ==> r == "-" + NatToString(-n.value)
  {
    match n
    case None => "NaN"
    case Some(v) => if v < 0 then "-" + NatToString(-v) else NatToString(v)
  }

  // ---------------------------------------------------------------------
  // parseInt(s, 10)

  /** WhiteSpace and LineTerminator code points, which `parseInt` skips
      before the number. */
  predicate IsJsSpace(c: char)
  {
    || c == '\t' || c == '\n' || c == '\U{B}' || c == '\U{C}' || c == '\r'
    || c == ' ' || c == '\U{A0}' || c == '\U{1680}'
    || ('\U{2000}' <= c <= '\U{200A}')
    || c == '\U{2028}' || c == '\U{2029}' || c == '\U{202F}' || c == '\U{205F}'
    || c == '\U{3000}' || c == '\U{FEFF}'
  }

  /** `s` without its leading white space. */
  function TrimStart(s: string): (r: string)
    ensures |r| <= |s| && r == s[|s| - |r|..]
    ensures forall i :: 0 <= i < |s| - |r| ==> IsJsSpace(s[i])
    ensures |r| > 0 ==> !IsJsSpace(r[0])
    ensures |s| > 0 && !IsJsSpace(s[0]) ==> r == s
  {
    if |s| > 0 && IsJsSpace(s[0]) then
      var r := TrimStart(s[1..]);
      assert forall i :: 1 <= i < |s| - |r| ==> s[i] == s[1..][i - 1];
      r
    else s
  }

  /** The longest prefix of `s` made of decimal digits. */
  function DigitPrefix(s: string): (r: string)
    ensures AllDigits(r) && |r| <= |s| && r == s[..|r|]
    ensures |r| < |s| ==> !IsDigit(s[|r|])
  {
    if |s| > 0 && IsDigit(s[0]) then [s[0]] + DigitPrefix(s[1..]) else ""
  }

  /** `parseInt(s, 10)`: skip leading white space, take an optional sign,
      then the longest run of decimal digits; NaN (`None`) when that run is
      empty. A `-` before a zero value gives -0, represented by 0. */
  function ParseInt(s: string): (r: Option<int>)
    ensures |s| > 0 && AllDigits(s) ==> r == Some(DigitsValue(s))
    ensures TrimStart(s) == "" ==> r.None?
  {
    DigitsStartNumber(s);
    var t := TrimStart(s);
    var negative := |t| > 0 && t[0] == '-';
    var unsigned := if |t| > 0 && (t[0] == '-' || t[0] == '+') then t[1..] else t;
    var z := DigitPrefix(unsigned);
    if z == "" then None
    else if negative then Some(-(DigitsValue(z) as int))
    else Some(DigitsValue(z))
  }

  lemma {:induction false} DigitPrefixOfDigits(s: string)
    requires AllDigits(s)
    ensures DigitPrefix(s) == s
  {
    if |s| > 0 {
      DigitPrefixOfDigits(s[1..]);
    }
  }

  /** A non-empty digit string starts with neither white space nor a sign,
      and is its own digit prefix. */
  lemma DigitsStartNumber(s: string)
    ensures |s| > 0 && AllDigits(s) ==> !IsJsSpace(s[0]) && s[0] != '-' && s[0] != '+' && DigitPrefix(s) == s
  {
    if |s| > 0 && AllDigits(s) {
      DigitStartsNumber(s[0]);
      DigitPrefixOfDigits(s);
    }
  }

  /** A digit is neither white space nor a sign. */
  lemma DigitStartsNumber(c: char)
    requires IsDigit(c)
    ensures !IsJsSpace(c) && c != '-' && c != '+'
  {
  }

  /** `parseInt` reads back the decimal text of any natural number. */
  lemma ParseIntOfNatToString(n: nat)
    ensures ParseInt(NatToString(n)) == Some(n)
  {
    assert ParseInt(NatToString(n)) == Some(DigitsValue(NatToString(n)));
    DigitsValueOfNatToString(n);
  }
}

=== FILE: location.dfy ===
/** The Location screen: starting and stopping the tracking of a rental
    trip, the position samples it reports, and the Back button. Every
    handler is one atomic transition from a state and an event to a new
    state and the effects it issues; the platform's answers (the permission
    result, the watch id, the position samples) arrive inside the events. */
module Location {
  import opened Js
  import Session
  import Booking

  /** The platform's answer to the fine-location permission request. */
  datatype PermissionResult = Unavailable | Denied | Limited | Granted | Blocked

  /** `requestLocationPermission`: only the result GRANTED counts as a
      grant; LIMITED, DENIED, BLOCKED and UNAVAILABLE all refuse. */
  function PermissionGranted(p: PermissionResult): (granted: bool)
    ensures !granted <==> p.Unavailable? || p.Denied? || p.Limited? || p.Blocked?
  {
    p == Granted
  }

  /** A position sample. Latitude, longitude and speed are only passed
      through; `speed` is null when the platform cannot tell. */
  datatype Coords = Coords(latitude: real, longitude: real, speed: Option<real>)

  /** A sample together with the clock reading (the ISO text of
      `new Date()`) at the moment it is reported. */
  datatype Fix = Fix(coords: Coords, now: string)

  /** What the screen was opened with: the logged-in user, and the rental
      passed as the route parameter. */
  datatype Context = Context(user: Option<Session.User>, rental: Booking.Rental)

  /** The screen's state (`isTripStarted`, `watchId`, `location`), whether
      the confirm dialog of the Back button is up, whether the screen is
      still mounted, and the watches this screen registered and has not
      cleared. After the screen unmounts its state no longer changes, but a
      watch left registered keeps calling back. Watches leaked by earlier
      visits to the screen are not part of this state. */
  datatype State = State(
    isTripStarted: bool,
    watchId: Option<int>,
    location: Option<Coords>,
    confirming: bool,
    mounted: bool,
    watches: set<int>)

  function Init(): (s: State)
    ensures !s.isTripStarted && s.watchId.None? && s.location.None?
    ensures !s.confirming && s.mounted && s.watches == {}
  {
    State(false, None, None, false, true, {})
  }

  /** The body of the start-trip POST. */
  datatype TripUpdate = TripUpdate(
    renterId: Option<int>,
    renterFname: Option<string>,
    renterLname: Option<string>,
    latitude: real,
    longitude: real,
    speed: real,
    totalFuelConsumption: int,
    totalDistanceTravelled: int,
    lastUpdate: string,
    vehicleId: int,
    status: string,
    rentedVehicleId: int)

  const Ongoing := "Ongoing"

  datatype Effect =
    | RequestPermission
    | WatchPosition(id: int)
    | ClearWatch(id: int)
    | PostStartTrip(body: TripUpdate)
    | PutEndTrip(rentedVehicleId: int)
    | Alert(title: string, message: string)
    | Notify(message: string)
    | ShowConfirm
    | NavigateBack
    | CallbackTypeError

  const PermissionDeniedTitle := "Permission Denied"
  const PermissionDeniedMessage := "Location permission is required to start the trip."
  const TripStopped := "Trip Stopped Successfully"

  /** `speed || 0`: a null or zero speed is sent as 0. */
  function SpeedOrZero(speed: Option<real>): (v: real)
    ensures v != 0.0 ==> speed == Some(v)
    ensures speed.Some? && speed.value != 0.0 ==> v == speed.value
    ensures speed.None? ==> v == 0.0
  {
    if speed.Some? && speed.value != 0.0 then speed.value else 0.0
  }

  /** `sendLocationToDatabase`'s payload for one sample. */
  function TripUpdateFor(u: Session.User, rental: Booking.Rental, fix: Fix): (b: TripUpdate)
    ensures b.latitude == fix.coords.latitude && b.longitude == fix.coords.longitude
    ensures b.speed == SpeedOrZero(fix.coords.speed)
    ensures b.renterId == u.renterId && b.renterFname == u.renterFname && b.renterLname == u.renterLname
    ensures b.totalFuelConsumption == 0 && b.totalDistanceTravelled == 0
    ensures b.lastUpdate == fix.now && b.status == Ongoing
    ensures b.vehicleId == rental.vehicleId && b.rentedVehicleId == rental.rentedVehicleId
  {
    TripUpdate(u.renterId, u.renterFname, u.renterLname,
               fix.coords.latitude, fix.coords.longitude, SpeedOrZero(fix.coords.speed),
               0, 0, fix.now, rental.vehicleId, Ongoing, rental.rentedVehicleId)
  }

  // ---------------------------------------------------------------------
  // Handlers

  /** `startTracking`: one watch is registered and its id stored, and the
      trip is marked started. */
  function StartTracking(s: State, id: int): (r: (State, seq<Effect>))
    ensures r.0 == s.(isTripStarted := true, watchId := Some(id), watches := s.watches + {id})
    ensures r.1 == [WatchPosition(id)]
  {
    (s.(isTripStarted := true, watchId := Some(id), watches := s.watches + {id}), [WatchPosition(id)])
  }

  /** `stopTracking`: a stored watch is cleared, forgotten with the
      location, and the stop is announced; in every case the trip is marked
      stopped and the end-trip PUT is sent. */
  function StopTracking(ctx: Context, s: State): (r: (State, seq<Effect>))
    ensures !r.0.isTripStarted && r.0.watchId.None?
    ensures s.watchId.Some? ==> r.0.location.None? && r.0.watches == s.watches - {s.watchId.value}
    ensures s.watchId.Some? ==> r.1 == [ClearWatch(s.watchId.value), Notify(TripStopped), PutEndTrip(ctx.rental.rentedVehicleId)]
    ensures s.watchId.None? ==> r.0 == s.(isTripStarted := false) && r.1 == [PutEndTrip(ctx.rental.rentedVehicleId)]
    ensures r.0.mounted == s.mounted && r.0.confirming == s.confirming
  {
    var cleared :=
      if s.watchId.Some? then
        (s.(watchId := None, location := None, watches := s.watches - {s.watchId.value}),
         [ClearWatch(s.watchId.value), Notify(TripStopped)])
      else (s, []);
    (cleared.0.(isTripStarted := false), cleared.1 + [PutEndTrip(ctx.rental.rentedVehicleId)])
  }

  /** `handleTripToggle`: when stopped, ask for permission and either start
      tracking or alert; when started, stop. */
  function HandleTripToggle(ctx: Context, s: State, permission: PermissionResult, id: int): (r: (State, seq<Effect>))
    ensures !s.isTripStarted ==> |r.1| >= 1 && r.1[0] == RequestPermission
    ensures !s.isTripStarted && !PermissionGranted(permission) ==>
              r == (s, [RequestPermission, Alert(PermissionDeniedTitle, PermissionDeniedMessage)])
    ensures !s.isTripStarted && PermissionGranted(permission) ==>
              r.0 == StartTracking(s, id).0 && r.1 == [RequestPermission, WatchPosition(id)]
    ensures s.isTripStarted ==> r == StopTracking(ctx, s)
  {
    if !s.isTripStarted then
      if PermissionGranted(permission) then
        var started := StartTracking(s, id);
        (started.0, [RequestPermission] + started.1)
      else (s, [RequestPermission, Alert(PermissionDeniedTitle, PermissionDeniedMessage)])
    else StopTracking(ctx, s)
  }

  /** The watch callback for one sample: the location is stored while the
      screen is mounted, and the start-trip POST goes out whether or not it
      is. Reading `user.renterId` with no user throws inside the callback
      after the location was stored, and nothing is sent. */
  function WatchCallback(ctx: Context, s: State, fix: Fix): (r: (State, seq<Effect>))
    ensures s.mounted ==> r.0 == s.(location := Some(fix.coords))
    ensures !s.mounted ==> r.0 == s
    ensures ctx.user.Some? ==> r.1 == [PostStartTrip(TripUpdateFor(ctx.user.value, ctx.rental, fix))]
    ensures ctx.user.None? ==> r.1 == [CallbackTypeError]
  {
    var s' := if s.mounted then s.(location := Some(fix.coords)) else s;
    if ctx.user.Some? then (s', [PostStartTrip(TripUpdateFor(ctx.user.value, ctx.rental, fix))])
    else (s', [CallbackTypeError])
  }

  /** `goBack`: during a trip only the confirm dialog opens; otherwise the
      screen is left at once. */
  function GoBack(s: State): (r: (State, seq<Effect>))
    ensures s.isTripStarted ==> r == (s.(confirming := true), [ShowConfirm])
    ensures !s.isTripStarted ==> r == (s.(mounted := false), [NavigateBack])
  {
    if s.isTripStarted then (s.(confirming := true), [ShowConfirm])
    else (s.(mounted := false), [NavigateBack])
  }

  /** What the dialog's "End Trip" button does. `AsWritten` only navigates
      back, as the screen does; `StopFirst` stops the trip before leaving
      (see `EndTripLeaksWatch`). */
  datatype ExitPolicy = AsWritten | StopFirst

  function EndTripChosen(policy: ExitPolicy, ctx: Context, s: State): (r: (State, seq<Effect>))
    ensures !r.0.mounted && !r.0.confirming
    ensures |r.1| >= 1 && r.1[|r.1| - 1] == NavigateBack
    ensures policy.AsWritten? ==> r == (s.(confirming := false, mounted := false), [NavigateBack])
    ensures policy.StopFirst? ==>
              var stopped := StopTracking(ctx, s);
              r == (stopped.0.(confirming := false, mounted := false), stopped.1 + [NavigateBack])
  {
    match policy
    case AsWritten => (s.(confirming := false, mounted := false), [NavigateBack])
    case StopFirst =>
      var stopped := StopTracking(ctx, s);
      (stopped.0.(confirming := false, mounted := false), stopped.1 + [NavigateBack])
  }

  // ---------------------------------------------------------------------
  // Events

  datatype Event =
    | Toggle(permission: PermissionResult, newWatch: int)
    | Sample(watch: int, fix: Fix)
    | StartTripSettled(ok: bool)
    | EndTripSettled(ok: bool)
    | Back
    | ContinueTrip
    | EndTrip

  /** One event. Samples arrive only for a registered watch. The replies of
      the start-trip and end-trip calls are only logged. Presses reach the
      screen only while it is mounted; while the dialog is up only its two
      buttons can be pressed, and they only while it is up. */
  function Step(policy: ExitPolicy, ctx: Context, s: State, e: Event): (r: (State, seq<Effect>))
    ensures e.StartTripSettled? || e.EndTripSettled? ==> r == (s, [])
    ensures e.Sample? && e.watch !in s.watches ==> r == (s, [])
    ensures !s.mounted && !e.Sample? ==> r == (s, [])
    ensures e.ContinueTrip? && s.mounted && s.confirming ==> r == (s.(confirming := false), [])
    ensures s.confirming && !(e.ContinueTrip? || e.EndTrip? || e.Sample?) ==> r == (s, [])
    ensures !s.confirming && (e.ContinueTrip? || e.EndTrip?) ==> r == (s, [])
  {
    match e
    case Sample(w, fix) => if w in s.watches then WatchCallback(ctx, s, fix) else (s, [])
    case StartTripSettled(_) => (s, [])
    case EndTripSettled(_) => (s, [])
    case Toggle(p, w) =>
      if s.mounted && !s.confirming then HandleTripToggle(ctx, s, p, w) else (s, [])
    case Back => if s.mounted && !s.confirming then GoBack(s) else (s, [])
    case ContinueTrip => if s.mounted && s.confirming then (s.(confirming := false), []) else (s, [])
    case EndTrip => if s.mounted && s.confirming then EndTripChosen(policy, ctx, s) else (s, [])
  }

  function Run(policy: ExitPolicy, ctx: Context, s: State, events: seq<Event>): (State, seq<Effect>)
    decreases |events|
  {
    if |events| == 0 then (s, [])
    else
      var first := Step(policy, ctx, s, events[0]);
      var rest := Run(policy, ctx, first.0, events[1..]);
      (rest.0, first.1 + rest.1)
  }

  /** One step of a run: the first event's effects come first. */
  lemma RunStep(policy: ExitPolicy, ctx: Context, s: State, events: seq<Event>)
    requires |events| > 0
    ensures var first := Step(policy, ctx, s, events[0]);
            Run(policy, ctx, s, events)
            == (Run(policy, ctx, first.0, events[1..]).0, first.1 + Run(policy, ctx, first.0, events[1..]).1)
  {
  }

  // ---------------------------------------------------------------------
  // The invariant of the mounted screen

  /** The watches a stored watch id accounts for. */
  function WatchSet(id: Option<int>): set<int>
  {
    if id.Some? then {id.value} else {}
  }

  /** While mounted: a watch id is stored exactly while the trip is
      started, it is the only watch this screen registered and has not
      cleared, a location is shown only during a trip, and the dialog is up
      only during a trip. */
  predicate Inv(s: State)
  {
    s.mounted ==>
      && (s.watchId.Some? <==> s.isTripStarted)
      && s.watches == WatchSet(s.watchId)
      && (s.location.Some? ==> s.isTripStarted)
      && (s.confirming ==> s.isTripStarted)
  }

  /** With stop-before-leaving, additionally none of this screen's watches
      outlives it. */
  predicate InvStopFirst(s: State)
  {
    Inv(s) && (!s.mounted ==> s.watches == {})
  }

  lemma StepKeepsInv(policy: ExitPolicy, ctx: Context, s: State, e: Event)
    requires Inv(s)
    ensures Inv(Step(policy, ctx, s, e).0)
    ensures policy.StopFirst? && InvStopFirst(s) ==> InvStopFirst(Step(policy, ctx, s, e).0)
  {
  }

  lemma {:induction false} RunKeepsInv(policy: ExitPolicy, ctx: Context, s: State, events: seq<Event>)
    requires Inv(s)
    ensures Inv(Run(policy, ctx, s, events).0)
    ensures policy.StopFirst? && InvStopFirst(s) ==> InvStopFirst(Run(policy, ctx, s, events).0)
    decreases |events|
  {
    if |events| > 0 {
      StepKeepsInv(policy, ctx, s, events[0]);
      RunKeepsInv(policy, ctx, Step(policy, ctx, s, events[0]).0, events[1..]);
    }
  }

  /** Every state reached from the freshly opened screen, under either
      policy, keeps the invariant while mounted. */
  lemma ReachableKeepsInv(policy: ExitPolicy, ctx: Context, events: seq<Event>)
    ensures Inv(Run(policy, ctx, Init(), events).0)
    ensures policy.StopFirst? ==> InvStopFirst(Run(policy, ctx, Init(), events).0)
  {
    RunKeepsInv(policy, ctx, Init(), events);
  }

  // ---------------------------------------------------------------------
  // The toggle

  /** A refused permission (anything but GRANTED) leaves the stopped screen
      as it was: no watch, no request to the server, only the alert. */
  lemma RefusedToggle(policy: ExitPolicy, ctx: Context, s: State, p: PermissionResult, w: int)
    requires s.mounted && !s.confirming && !s.isTripStarted && !PermissionGranted(p)
    ensures Step(policy, ctx, s, Toggle(p, w))
            == (s, [RequestPermission, Alert(PermissionDeniedTitle, PermissionDeniedMessage)])
  {
  }

  /** A granted toggle on the stopped screen registers exactly one watch,
      stores its id and starts the trip, and calls no server endpoint. */
  lemma GrantedToggleStarts(policy: ExitPolicy, ctx: Context, s: State, w: int)
    requires Inv(s) && s.mounted && !s.confirming && !s.isTripStarted
    ensures var r := Step(policy, ctx, s, Toggle(Granted, w));
            && r.1 == [RequestPermission, WatchPosition(w)]
            && r.0.isTripStarted && r.0.watchId == Some(w) && r.0.watches == {w}
            && r.0.location == s.location && r.0.mounted
  {
  }

  /** A toggle during a trip clears the stored watch once, forgets the
      watch and the location, stops the trip and sends the end-trip PUT for
      the rental. */
  lemma ToggleStops(policy: ExitPolicy, ctx: Context, s: State, p: PermissionResult, w: int)
    requires Inv(s) && s.mounted && !s.confirming && s.isTripStarted
    ensures var r := Step(policy, ctx, s, Toggle(p, w));
            && r.1 == [ClearWatch(s.watchId.value), Notify(TripStopped), PutEndTrip(ctx.rental.rentedVehicleId)]
            && !r.0.isTripStarted && r.0.watchId.None? && r.0.location.None? && r.0.watches == {}
            && r.0.mounted
  {
  }

  /** `n` granted toggles in a row, the i-th registering watch `ws[i]`
      when it starts a trip. */
  function GrantedToggles(ws: seq<int>): (events: seq<Event>)
    ensures |events| == |ws|
    ensures forall i :: 0 <= i < |ws| ==> events[i] == Toggle(Granted, ws[i])
  {
    seq(|ws|, i requires 0 <= i < |ws| => Toggle(Granted, ws[i]))
  }

  /** Granted toggles alternate: after an odd number the trip runs on the
      watch of the last toggle, after an even number it is stopped with no
      watch, whatever the state started from. */
  lemma {:induction false} TogglesAlternate(policy: ExitPolicy, ctx: Context, s: State, ws: seq<int>)
    requires Inv(s) && s.mounted && !s.confirming
    ensures var s' := Run(policy, ctx, s, GrantedToggles(ws)).0;
            && Inv(s') && s'.mounted && !s'.confirming
            && (|ws| == 0 ==> s' == s)
            && (|ws| > 0 ==> (s'.isTripStarted <==> (s.isTripStarted != (|ws| % 2 == 1))))
            && (|ws| > 0 && s'.isTripStarted ==> s'.watchId == Some(ws[|ws| - 1]))
    decreases |ws|
  {
    if |ws| > 0 {
      var events := GrantedToggles(ws);
      var first := Step(policy, ctx, s, events[0]);
      assert events[1..] == GrantedToggles(ws[1..]);
      TogglesAlternate(policy, ctx, first.0, ws[1..]);
      if |ws| > 1 {
        assert ws[1..][|ws| - 2] == ws[|ws| - 1];
      }
    }
  }

  /** From the freshly opened screen the trip runs exactly after an odd
      number of granted toggles. */
  lemma TogglesFromInit(policy: ExitPolicy, ctx: Context, ws: seq<int>)
    ensures var s' := Run(policy, ctx, Init(), GrantedToggles(ws)).0;
            && (s'.isTripStarted <==> |ws| % 2 == 1)
            && (s'.watchId.Some? <==> s'.isTripStarted)
  {
    TogglesAlternate(policy, ctx, Init(), ws);
  }

  // ---------------------------------------------------------------------
  // Samples and replies

  /** Samples from watch `w`. */
  function SampleEvents(w: int, fixes: seq<Fix>): (events: seq<Event>)
    ensures |events| == |fixes|
    ensures forall i :: 0 <= i < |fixes| ==> events[i] == Sample(w, fixes[i])
  {
    seq(|fixes|, i requires 0 <= i < |fixes| => Sample(w, fixes[i]))
  }

  /** Each sample of the running watch shows its coordinates and sends one
      start-trip POST with those coordinates, in order: `n` samples, `n`
      POSTs. */
  lemma {:induction false} SamplesPostInOrder(policy: ExitPolicy, ctx: Context, s: State, w: int, fixes: seq<Fix>)
    requires ctx.user.Some? && s.mounted && w in s.watches
    ensures var r := Run(policy, ctx, s, SampleEvents(w, fixes));
            && |r.1| == |fixes|
            && (forall i :: 0 <= i < |fixes| ==>
                  r.1[i] == PostStartTrip(TripUpdateFor(ctx.user.value, ctx.rental, fixes[i])))
            && (|fixes| > 0 ==> r.0 == s.(location := Some(fixes[|fixes| - 1].coords)))
            && (|fixes| == 0 ==> r.0 == s)
    decreases |fixes|
  {
    if |fixes| > 0 {
      var events := SampleEvents(w, fixes);
      var first := Step(policy, ctx, s, events[0]);
      assert events[1..] == SampleEvents(w, fixes[1..]);
      SamplesPostInOrder(policy, ctx, first.0, w, fixes[1..]);
      var rest := Run(policy, ctx, first.0, events[1..]);
      var r := Run(policy, ctx, s, events);
      assert r.1 == first.1 + rest.1;
      forall i | 0 <= i < |fixes|
        ensures r.1[i] == PostStartTrip(TripUpdateFor(ctx.user.value, ctx.rental, fixes[i]))
      {
        if i > 0 {
          assert r.1[i] == rest.1[i - 1];
          assert fixes[1..][i - 1] == fixes[i];
        }
      }
      if |fixes| > 1 {
        assert fixes[1..][|fixes| - 2] == fixes[|fixes| - 1];
      }
    }
  }

  /** The answers of the start-trip and end-trip calls, success or
      failure, change nothing and issue nothing. */
  lemma RepliesOnlyLogged(policy: ExitPolicy, ctx: Context, s: State, ok: bool)
    ensures Step(policy, ctx, s, StartTripSettled(ok)) == (s, [])
    ensures Step(policy, ctx, s, EndTripSettled(ok)) == (s, [])
  {
  }

  // ---------------------------------------------------------------------
  // The Back button

  /** Back on a stopped screen leaves at once; during a trip it only opens
      the dialog, whose "Continue Trip" closes it and changes nothing else. */
  lemma BackButton(policy: ExitPolicy, ctx: Context, s: State)
    requires s.mounted && !s.confirming
    ensures !s.isTripStarted ==> Step(policy, ctx, s, Back) == (s.(mounted := false), [NavigateBack])
    ensures s.isTripStarted ==> Step(policy, ctx, s, Back) == (s.(confirming := true), [ShowConfirm])
    ensures s.isTripStarted ==>
              Step(policy, ctx, Step(policy, ctx, s, Back).0, ContinueTrip) == (s, [])
  {
  }

  // ---------------------------------------------------------------------
  // Watch bookkeeping

  function Registered(effects: seq<Effect>): nat
    decreases |effects|
  {
    if |effects| == 0 then 0
    else (if effects[0].WatchPosition? then 1 else 0) + Registered(effects[1..])
  }

  function Cleared(effects: seq<Effect>): nat
    decreases |effects|
  {
    if |effects| == 0 then 0
    else (if effects[0].ClearWatch? then 1 else 0) + Cleared(effects[1..])
  }

  lemma {:induction false} CountsOfConcat(a: seq<Effect>, b: seq<Effect>)
    ensures Registered(a + b) == Registered(a) + Registered(b)
    ensures Cleared(a + b) == Cleared(a) + Cleared(b)
    decreases |a|
  {
    if |a| == 0 {
      assert a + b == b;
    } else {
      assert (a + b)[0] == a[0];
      assert (a + b)[1..] == a[1..] + b;
      CountsOfConcat(a[1..], b);
    }
  }

  /** The platform's live watches after one effect: `watchPosition`
      registers its id, `clearWatch` removes its id, and no other effect
      touches them. */
  function ApplyWatch(w: set<int>, e: Effect): set<int>
  {
    match e
    case WatchPosition(id) => w + {id}
    case ClearWatch(id) => w - {id}
    case _ => w
  }

  /** The live watches after `effects`, applied in order. */
  function Live(w: set<int>, effects: seq<Effect>): set<int>
    decreases |effects|
  {
    if |effects| == 0 then w else Live(ApplyWatch(w, effects[0]), effects[1..])
  }

  /** Every `clearWatch` in `effects` names a watch live at that point, and
      every `watchPosition` a watch not live yet. */
  predicate Tracks(w: set<int>, effects: seq<Effect>)
    decreases |effects|
  {
    || |effects| == 0
    || (&& (effects[0].ClearWatch? ==> effects[0].id in w)
        && (effects[0].WatchPosition? ==> effects[0].id !in w)
        && Tracks(ApplyWatch(w, effects[0]), effects[1..]))
  }

  lemma {:induction false} LiveOfConcat(w: set<int>, a: seq<Effect>, b: seq<Effect>)
    ensures Live(w, a + b) == Live(Live(w, a), b)
    ensures Tracks(w, a + b) <==> Tracks(w, a) && Tracks(Live(w, a), b)
    decreases |a|
  {
    if |a| == 0 {
      assert a + b == b;
    } else {
      assert (a + b)[0] == a[0];
      assert (a + b)[1..] == a[1..] + b;
      LiveOfConcat(ApplyWatch(w, a[0]), a[1..], b);
    }
  }

  /** Tracked effects change the number of live watches by the registrations
      less the clearances. */
  lemma {:induction false} TrackedCounts(w: set<int>, effects: seq<Effect>)
    requires Tracks(w, effects)
    ensures |Live(w, effects)| + Cleared(effects) == |w| + Registered(effects)
    decreases |effects|
  {
    if |effects| > 0 {
      var e := effects[0];
      TrackedCounts(ApplyWatch(w, e), effects[1..]);
      if e.WatchPosition? {
        assert |w + {e.id}| == |w| + 1;
      } else if e.ClearWatch? {
        assert |w - {e.id}| == |w| - 1;
      }
    }
  }

  /** Effects that neither register nor clear a watch leave the live
      watches alone. */
  lemma {:induction false} InertEffects(w: set<int>, effects: seq<Effect>)
    requires forall i :: 0 <= i < |effects| ==> !effects[i].WatchPosition? && !effects[i].ClearWatch?
    ensures Live(w, effects) == w && Tracks(w, effects)
    ensures Registered(effects) == 0 && Cleared(effects) == 0
    decreases |effects|
  {
    if |effects| > 0 {
      InertEffects(w, effects[1..]);
    }
  }

  /** One registration or clearance followed by inert effects. */
  lemma WatchThenInert(w: set<int>, e: Effect, rest: seq<Effect>)
    requires forall i :: 0 <= i < |rest| ==> !rest[i].WatchPosition? && !rest[i].ClearWatch?
    ensures Live(w, [e] + rest) == ApplyWatch(w, e)
    ensures Tracks(w, [e] + rest) <==> Tracks(w, [e])
  {
    LiveOfConcat(w, [e], rest);
    assert [e][1..] == [];
    InertEffects(ApplyWatch(w, e), rest);
  }

  /** Stopping clears exactly the stored watch, which is the one live watch. */
  lemma StopTracks(ctx: Context, s: State)
    requires Inv(s) && s.mounted && s.isTripStarted
    ensures var r := StopTracking(ctx, s);
            r.0.watches == Live(s.watches, r.1) && Tracks(s.watches, r.1)
  {
    var r := StopTracking(ctx, s);
    var id := s.watchId.value;
    var rest := [Notify(TripStopped), PutEndTrip(ctx.rental.rentedVehicleId)];
    assert r.1 == [ClearWatch(id)] + rest;
    WatchThenInert(s.watches, ClearWatch(id), rest);
    assert [ClearWatch(id)][1..] == [];
  }

  /** One step changes the screen's record of live watches exactly as its
      effects change the platform's; from a state keeping the invariant,
      it clears only live watches and registers only new ones. */
  lemma StepTracksWatches(policy: ExitPolicy, ctx: Context, s: State, e: Event)
    requires Inv(s)
    ensures var r := Step(policy, ctx, s, e);
            r.0.watches == Live(s.watches, r.1) && Tracks(s.watches, r.1)
  {
    var r := Step(policy, ctx, s, e);
    match e
    case Toggle(p, w) =>
      if s.mounted && !s.confirming {
        if !s.isTripStarted {
          if PermissionGranted(p) {
            assert r.1 == [RequestPermission] + [WatchPosition(w)];
            InertEffects(s.watches, [RequestPermission]);
            LiveOfConcat(s.watches, [RequestPermission], [WatchPosition(w)]);
            WatchThenInert(s.watches, WatchPosition(w), []);
            assert [WatchPosition(w)] + [] == [WatchPosition(w)];
          } else {
            InertEffects(s.watches, r.1);
          }
        } else {
          StopTracks(ctx, s);
        }
      } else {
        InertEffects(s.watches, r.1);
      }
    case EndTrip =>
      if s.mounted && s.confirming && policy.StopFirst? {
        var stopped := StopTracking(ctx, s);
        StopTracks(ctx, s);
        LiveOfConcat(s.watches, stopped.1, [NavigateBack]);
        InertEffects(stopped.0.watches, [NavigateBack]);
      } else {
        InertEffects(s.watches, r.1);
      }
    case _ =>
      InertEffects(s.watches, r.1);
  }

  /** Over any run from a state keeping the invariant, the watches the
      screen still holds are exactly those its effects leave live: every
      clearance names a live watch, every registration a new one, and so
      the number held is the number registered less the number cleared. */
  lemma {:induction false} RunBalancesWatches(policy: ExitPolicy, ctx: Context, s: State, events: seq<Event>)
    requires Inv(s)
    ensures var r := Run(policy, ctx, s, events);
            && r.0.watches == Live(s.watches, r.1)
            && Tracks(s.watches, r.1)
            && |r.0.watches| + Cleared(r.1) == |s.watches| + Registered(r.1)
    decreases |events|
  {
    var r := Run(policy, ctx, s, events);
    if |events| > 0 {
      var first := Step(policy, ctx, s, events[0]);
      StepTracksWatches(policy, ctx, s, events[0]);
      StepKeepsInv(policy, ctx, s, events[0]);
      RunBalancesWatches(policy, ctx, first.0, events[1..]);
      var rest := Run(policy, ctx, first.0, events[1..]);
      LiveOfConcat(s.watches, first.1, rest.1);
    }
    TrackedCounts(s.watches, r.1);
  }

  // ---------------------------------------------------------------------
  // Leaving during a trip

  /** As written, confirming "End Trip" right after starting leaves the
      screen with the watch still registered, without clearing it and
      without the end-trip PUT; a later sample of that watch still sends a
      start-trip POST for the rental. */
  lemma EndTripLeaksWatch(ctx: Context, w: int, fix: Fix)
    requires ctx.user.Some?
    ensures var r := Run(AsWritten, ctx, Init(), [Toggle(Granted, w), Back, EndTrip]);
            && !r.0.mounted && r.0.watches == {w}
            && r.1 == [RequestPermission, WatchPosition(w), ShowConfirm, NavigateBack]
            && Registered(r.1) == 1 && Cleared(r.1) == 0
            && Step(AsWritten, ctx, r.0, Sample(w, fix)).1
               == [PostStartTrip(TripUpdateFor(ctx.user.value, ctx.rental, fix))]
  {
    var events := [Toggle(Granted, w), Back, EndTrip];
    var s1 := Step(AsWritten, ctx, Init(), events[0]);
    assert Init().watches + {w} == {w};
    assert s1 == (State(true, Some(w), None, false, true, {w}), [RequestPermission, WatchPosition(w)]);
    var s2 := Step(AsWritten, ctx, s1.0, events[1]);
    assert s2 == (s1.0.(confirming := true), [ShowConfirm]);
    var s3 := Step(AsWritten, ctx, s2.0, events[2]);
    assert s3 == (s2.0.(confirming := false, mounted := false), [NavigateBack]);
    assert events[1..][1..][1..] == [];
    assert events[1..][1..] == [EndTrip];
    RunStep(AsWritten, ctx, s2.0, events[1..][1..]);
    assert s3.1 + [] == s3.1;
    assert Run(AsWritten, ctx, s2.0, events[1..][1..]) == s3;
    RunStep(AsWritten, ctx, s1.0, events[1..]);
    assert Run(AsWritten, ctx, s1.0, events[1..]) == (s3.0, s2.1 + s3.1);
    RunStep(AsWritten, ctx, Init(), events);
    var r := Run(AsWritten, ctx, Init(), events);
    assert r.1 == s1.1 + (s2.1 + s3.1);
    RunBalancesWatches(AsWritten, ctx, Init(), events);
    CountsOfConcat(s1.1, s2.1 + s3.1);
    assert Registered(s2.1 + s3.1) == 0 && Cleared(s2.1 + s3.1) == 0 by {
      assert s2.1 + s3.1 == [ShowConfirm, NavigateBack];
      assert [ShowConfirm, NavigateBack][1..] == [NavigateBack];
      assert [NavigateBack][1..] == [];
    }
  }

  /** With stop-before-leaving, once the screen is left nothing more ever
      happens: no event changes the state or issues an effect. */
  lemma LeftScreenIsQuiet(ctx: Context, s: State, events: seq<Event>)
    requires InvStopFirst(s) && !s.mounted
    ensures Run(StopFirst, ctx, s, events) == (s, [])
  {
    QuietRun(ctx, s, events);
  }

  lemma {:induction false} QuietRun(ctx: Context, s: State, events: seq<Event>)
    requires InvStopFirst(s) && !s.mounted
    ensures Run(StopFirst, ctx, s, events) == (s, [])
    decreases |events|
  {
    if |events| > 0 {
      assert Step(StopFirst, ctx, s, events[0]) == (s, []);
      QuietRun(ctx, s, events[1..]);
      var none: seq<Effect> := [];
      assert none + none == none;
    }
  }

  /** With stop-before-leaving, "End Trip" in the dialog clears the running
      watch, sends the end-trip PUT, and only then leaves. */
  lemma EndTripStopsFirst(ctx: Context, s: State)
    requires Inv(s) && s.mounted && s.confirming
    ensures var r := Step(StopFirst, ctx, s, EndTrip);
            && r.1 == [ClearWatch(s.watchId.value), Notify(TripStopped),
                       PutEndTrip(ctx.rental.rentedVehicleId), NavigateBack]
            && !r.0.mounted && r.0.watches == {}
  {
  }
}

=== FILE: login.dfy ===
/** The Login screen's `handleLogin`: one POST to the login endpoint, then
    a decision over the shape of the reply or of the caught error. */
module Login {
  import opened Js
  import Session

  /** The body of the login POST. */
  datatype Request = Request(email: string, password: string, role: string)

  const RenterRole := "renter"

  /** `response.data` of a resolved request: null/undefined, or an object of
      which only the eight user fields are read; `others` stands for any
      further fields the server sends. */
  datatype Body = NullBody | Body(fields: Session.User, others: map<string, string>)

  /** How the awaited `axios.post` settled. A rejection carries either a
      response (status, `data` with its `Message`, `statusText`), or only a
      request (no response arrived), or neither (the request could not be
      made). */
  datatype Reply =
    | Resolved(status: int, data: Body)
    | RejectedWithResponse(status: int, errorData: Option<ErrorData>, statusText: string)
    | RejectedWithoutResponse
    | RejectedBeforeRequest(message: string)

  /** `error.response.data` of a rejection, with its `Message` field. */
  datatype ErrorData = ErrorData(message: Option<string>)

  datatype Effect =
    | PostLogin(request: Request)
    | CallLogin(user: Session.User)
    | Notify(message: string)
    | Navigate(screen: string)

  const LoginSuccessful := "Login successful"
  const AccessDenied := "You do not have access to this application."
  const InvalidCredentials := "Invalid credentials. Please try again."
  const NoResponse := "Error: No response from server. Check your network or server configuration."

  /** A reply that logs the user in: status 200 and role 'renter'. */
  predicate Admitted(reply: Reply)
  {
    && reply.Resolved?
    && reply.status == 200
    && reply.data.Body?
    && reply.data.fields.role == Some(RenterRole)
  }

  /** A reply that ends in the catch block: a rejection, or a 200 reply
      whose data is null, since destructuring null throws a TypeError, which
      carries neither a response nor a request. */
  predicate Caught(reply: Reply)
  {
    !reply.Resolved? || (reply.status == 200 && reply.data.NullBody?)
  }

  /** The alert raised in the catch block. `typeError` is the JavaScript
      engine's message for the TypeError of destructuring null. */
  function CaughtMessage(reply: Reply, typeError: string): (m: string)
    requires Caught(reply)
    ensures reply.RejectedWithResponse? && reply.status == 401 ==>
              m == (if reply.errorData.Some? then StrOr(reply.errorData.value.message, InvalidCredentials) else InvalidCredentials)
    ensures reply.RejectedWithResponse? && reply.status != 401 ==>
              m == "Error: " + (if reply.errorData.Some? then StrOr(reply.errorData.value.message, reply.statusText) else reply.statusText)
    ensures reply.RejectedWithoutResponse? ==> m == NoResponse
    ensures reply.RejectedBeforeRequest? ==> m == "Error: " + reply.message
    ensures reply.Resolved? ==> m == "Error: " + typeError
  {
    match reply
    case RejectedWithResponse(status, data, statusText) =>
      var message := if data.Some? then data.value.message else None;
      if status == 401 then StrOr(message, InvalidCredentials)
      else "Error: " + StrOr(message, statusText)
    case RejectedWithoutResponse => NoResponse
    case RejectedBeforeRequest(message) => "Error: " + message
    case Resolved(_, _) => "Error: " + typeError
  }

  function HandleLogin(email: string, password: string, reply: Reply, typeError: string): (effects: seq<Effect>)
    ensures |effects| >= 1 && effects[0] == PostLogin(Request(email, password, RenterRole))
  {
    [PostLogin(Request(email, password, RenterRole))] +
    match reply
    case Resolved(status, data) =>
      if status != 200 then []
      else if data.NullBody? then [Notify(CaughtMessage(reply, typeError))]
      else if data.fields.role == Some(RenterRole) then
        [CallLogin(data.fields), Notify(LoginSuccessful), Navigate("Home")]
      else [Notify(AccessDenied)]
    case _ => [Notify(CaughtMessage(reply, typeError))]
  }

  // ---------------------------------------------------------------------
  // The decision table

  /** A 200 reply with role 'renter' stores exactly the eight destructured
      fields, confirms, and opens Home, in that order. */
  lemma AdmittedLogsIn(email: string, password: string, fields: Session.User, others: map<string, string>, typeError: string)
    requires fields.role == Some(RenterRole)
    ensures HandleLogin(email, password, Resolved(200, Body(fields, others)), typeError)
            == [PostLogin(Request(email, password, RenterRole)), CallLogin(fields), Notify(LoginSuccessful), Navigate("Home")]
  {
  }

  /** A 200 reply with any other role, or none, only alerts access denied. */
  lemma OtherRoleDenied(email: string, password: string, fields: Session.User, others: map<string, string>, typeError: string)
    requires fields.role != Some(RenterRole)
    ensures HandleLogin(email, password, Resolved(200, Body(fields, others)), typeError)
            == [PostLogin(Request(email, password, RenterRole)), Notify(AccessDenied)]
  {
  }

  /** A resolved reply whose status is not 200 does nothing after the POST. */
  lemma OtherStatusIgnored(email: string, password: string, status: int, data: Body, typeError: string)
    requires status != 200
    ensures HandleLogin(email, password, Resolved(status, data), typeError) == [PostLogin(Request(email, password, RenterRole))]
  {
  }

  /** The store is written and Home opened exactly for an admitted reply,
      and what is stored is the reply's user fields. Every caught error
      raises exactly one alert and nothing else. */
  lemma LoginOnlyWhenAdmitted(email: string, password: string, reply: Reply, typeError: string)
    ensures var effects := HandleLogin(email, password, reply, typeError);
            && ((exists i :: 0 <= i < |effects| && effects[i].CallLogin?) <==> Admitted(reply))
            && ((exists i :: 0 <= i < |effects| && effects[i].Navigate?) <==> Admitted(reply))
            && (forall i :: 0 <= i < |effects| && effects[i].CallLogin? ==> effects[i].user == reply.data.fields)
            && (Caught(reply) ==> effects[1..] == [Notify(CaughtMessage(reply, typeError))])
  {
    var effects := HandleLogin(email, password, reply, typeError);
    if Admitted(reply) {
      assert effects[1].CallLogin? && effects[3].Navigate?;
    }
  }

  /** The session after the login effects have been applied to it. */
  function StoreAfter(s: Session.Store, effects: seq<Effect>): Session.Store
    decreases |effects|
  {
    if |effects| == 0 then s
    else
      var s' := if effects[0].CallLogin? then Session.Login(s, effects[0].user) else s;
      StoreAfter(s', effects[1..])
  }

  /** Seen from the session store: an admitted reply leaves exactly the
      reply's user logged in; any other outcome leaves the store as it was. */
  lemma SessionAfterLogin(s: Session.Store, email: string, password: string, reply: Reply, typeError: string)
    ensures var s' := StoreAfter(s, HandleLogin(email, password, reply, typeError));
            && (Admitted(reply) ==> s'.user == Some(reply.data.fields))
            && (!Admitted(reply) ==> s' == s)
  {
    var effects := HandleLogin(email, password, reply, typeError);
    if Admitted(reply) {
      var u := reply.data.fields;
      assert effects[1..] == [CallLogin(u), Notify(LoginSuccessful), Navigate("Home")];
      assert StoreAfter(s, effects) == StoreAfter(s, effects[1..]);
      var rest := [Notify(LoginSuccessful), Navigate("Home")];
      assert effects[1..][1..] == rest;
      assert StoreAfter(s, effects[1..]) == StoreAfter(Session.Login(s, u), rest);
      NoLoginKeepsStore(Session.Login(s, u), rest);
    } else {
      assert forall i :: 0 <= i < |effects| ==> !effects[i].CallLogin?;
      NoLoginKeepsStore(s, effects);
    }
  }

  lemma {:induction false} NoLoginKeepsStore(s: Session.Store, effects: seq<Effect>)
    requires forall i :: 0 <= i < |effects| ==> !effects[i].CallLogin?
    ensures StoreAfter(s, effects) == s
    decreases |effects|
  {
    if |effects| > 0 {
      NoLoginKeepsStore(s, effects[1..]);
    }
  }
}

=== FILE: report.dfy ===
/** The Report screen: the incident form, its date and time pickers, and
    `handleSubmit` with its validation, payload and reset. */
module Report {
  import opened Js
  import Session

  /** A JavaScript Date value. The form only stores and forwards it. */
  datatype Instant = Instant(epochMillis: int)

  /** A picker's change event: dismissed, or any other event type, which
      carries the selected value. */
  datatype PickerEvent = Dismissed | Selected(value: Instant)

  /** The form's state. `natureOfIssue` and `note` start as "" and
      `isEmergency` as false; a successful submission sets all three to null. */
  datatype Form = Form(
    isEmergency: Option<bool>,
    natureOfIssue: Option<string>,
    date: Instant,
    time: Instant,
    showDatePicker: bool,
    showTimePicker: bool,
    note: Option<string>)

  /** The form as mounted; the date and the time each hold their own
      reading of the clock, taken one after the other. */
  function Init(dateNow: Instant, timeNow: Instant): (f: Form)
    ensures f.isEmergency == Some(false) && f.natureOfIssue == Some("") && f.note == Some("")
    ensures f.date == dateNow && f.time == timeNow && !f.showDatePicker && !f.showTimePicker
  {
    Form(Some(false), Some(""), dateNow, timeNow, false, false, Some(""))
  }

  // ---------------------------------------------------------------------
  // Field handlers

  /** `handleSwitchChange(value)`: the emergency flag becomes `value`. */
  function HandleSwitchChange(f: Form, value: bool): (f': Form)
    ensures f'.isEmergency == Some(value)
    ensures f'.(isEmergency := f.isEmergency) == f
  {
    f.(isEmergency := Some(value))
  }

  /** `onChangeDate`: a dismissal closes both pickers and keeps the date;
      any other event stores the selected date and closes only the date
      picker. */
  function OnChangeDate(f: Form, event: PickerEvent): (f': Form)
    ensures event.Dismissed? ==> f' == f.(showDatePicker := false, showTimePicker := false)
    ensures event.Selected? ==> f' == f.(date := event.value, showDatePicker := false)
  {
    match event
    case Dismissed => f.(showDatePicker := false, showTimePicker := false)
    case Selected(d) => f.(date := d, showDatePicker := false)
  }

  /** `onChangeTime`: a dismissal closes both pickers and keeps the time;
      any other event stores the selected time and closes only the time
      picker. */
  function OnChangeTime(f: Form, event: PickerEvent): (f': Form)
    ensures event.Dismissed? ==> f' == f.(showDatePicker := false, showTimePicker := false)
    ensures event.Selected? ==> f' == f.(time := event.value, showTimePicker := false)
  {
    match event
    case Dismissed => f.(showTimePicker := false, showDatePicker := false)
    case Selected(t) => f.(time := t, showTimePicker := false)
  }

  /** After either picker's change event no picker is open, except that a
      time selection leaves an open date picker open and vice versa; the
      date and time change only on a selection, and only the matching one. */
  lemma PickerEventsClose(f: Form, event: PickerEvent)
    ensures !OnChangeDate(f, event).showDatePicker && !OnChangeTime(f, event).showTimePicker
    ensures event.Dismissed? ==> !OnChangeDate(f, event).showTimePicker && !OnChangeTime(f, event).showDatePicker
    ensures OnChangeDate(f, event).time == f.time && OnChangeTime(f, event).date == f.date
    ensures event.Dismissed? ==> OnChangeDate(f, event).date == f.date && OnChangeTime(f, event).time == f.time
    ensures event.Selected? ==> OnChangeDate(f, event).showTimePicker == f.showTimePicker
    ensures event.Selected? ==> OnChangeTime(f, event).showDatePicker == f.showDatePicker
  {
  }

  // ---------------------------------------------------------------------
  // Submission

  /** The body of the addReport POST. `time` stands for the "HH:MM:SS"
      text of the time value. */
  datatype ReportBody = ReportBody(
    renterId: Option<int>,
    natureOfIssue: string,
    date: Instant,
    time: Instant,
    note: string,
    emergency: string)

  datatype Effect =
    | Notify(message: string)
    | PostReport(body: ReportBody)
    | UncaughtTypeError

  const NatureMissing := "Please select the nature of the issue."
  const NoteMissing := "Please add a note."
  const Submitted := "Report submitted successfully"
  const SubmitFailed := "Failed to submit the report. Please try again later."

  /** What a successful submission resets the form to. `AsWritten` sets
      the nature, the note and the emergency flag to null, as the screen
      does; `EmergencyToFalse` keeps the flag a boolean (see
      `ResubmitAfterSuccessThrows`). */
  datatype ResetPolicy = AsWritten | EmergencyToFalse

  function ResetAfterSuccess(f: Form, policy: ResetPolicy): (f': Form)
    ensures f'.natureOfIssue.None? && f'.note.None?
    ensures policy.AsWritten? ==> f'.isEmergency.None?
    ensures policy.EmergencyToFalse? ==> f'.isEmergency == Some(false)
    ensures f'.date == f.date && f'.time == f.time
    ensures f'.showDatePicker == f.showDatePicker && f'.showTimePicker == f.showTimePicker
  {
    f.(natureOfIssue := None, note := None,
       isEmergency := if policy.AsWritten? then None else Some(false))
  }

  /** `String(b)` of a boolean: "true" or "false". */
  function BoolText(b: bool): string
  {
    if b then "true" else "false"
  }

  /** `handleSubmit`, with `postOk` telling how the POST settled. The
      checks come first; then the debug log evaluates
      `isEmergency.toString()`, which throws outside the try block when the
      flag is null. */
  function HandleSubmit(policy: ResetPolicy, user: Option<Session.User>, f: Form, postOk: bool): (r: (Form, seq<Effect>))
    ensures 1 <= |r.1| <= 2
    ensures r.1[0].PostReport? <==> StrTruthy(f.natureOfIssue) && StrTruthy(f.note) && f.isEmergency.Some?
    ensures forall i :: 1 <= i < |r.1| ==> !r.1[i].PostReport?
    ensures UncaughtTypeError in r.1 <==> StrTruthy(f.natureOfIssue) && StrTruthy(f.note) && f.isEmergency.None?
    ensures r.0 != f ==> postOk && r.1[0].PostReport?
  {
    if !StrTruthy(f.natureOfIssue) then (f, [Notify(NatureMissing)])
    else if !StrTruthy(f.note) then (f, [Notify(NoteMissing)])
    else if f.isEmergency.None? then (f, [UncaughtTypeError])
    else
      var renterId := if user.Some? then user.value.renterId else None;
      var body := ReportBody(renterId, f.natureOfIssue.value, f.date, f.time, f.note.value,
                             BoolText(f.isEmergency.value));
      if postOk then (ResetAfterSuccess(f, policy), [PostReport(body), Notify(Submitted)])
      else (f, [PostReport(body), Notify(SubmitFailed)])
  }

  /** A falsy nature (null, undefined or "") is reported first, whatever the
      note, and nothing is sent or changed. */
  lemma NatureCheckedFirst(policy: ResetPolicy, user: Option<Session.User>, f: Form, postOk: bool)
    requires !StrTruthy(f.natureOfIssue)
    ensures HandleSubmit(policy, user, f, postOk) == (f, [Notify(NatureMissing)])
  {
  }

  /** With a nature chosen, a falsy note is reported and nothing is sent or
      changed. */
  lemma NoteCheckedSecond(policy: ResetPolicy, user: Option<Session.User>, f: Form, postOk: bool)
    requires StrTruthy(f.natureOfIssue) && !StrTruthy(f.note)
    ensures HandleSubmit(policy, user, f, postOk) == (f, [Notify(NoteMissing)])
  {
  }

  /** A complete form whose emergency flag is a boolean is sent once, with
      the user's renter id, the nature and note verbatim and the flag as
      "true"/"false". Success then resets the form; failure leaves it as it
      was. Either way exactly one alert follows the POST. */
  lemma ValidSubmission(policy: ResetPolicy, user: Option<Session.User>, f: Form, postOk: bool)
    requires StrTruthy(f.natureOfIssue) && StrTruthy(f.note) && f.isEmergency.Some?
    ensures var (f', effects) := HandleSubmit(policy, user, f, postOk);
            && |effects| == 2 && effects[0].PostReport? && effects[1].Notify?
            && effects[0].body.renterId == (if user.Some? then user.value.renterId else None)
            && effects[0].body.natureOfIssue == f.natureOfIssue.value
            && effects[0].body.note == f.note.value
            && effects[0].body.date == f.date && effects[0].body.time == f.time
            && (effects[0].body.emergency == "true" <==> f.isEmergency.value)
            && (effects[0].body.emergency == "false" <==> !f.isEmergency.value)
            && (postOk ==> f' == ResetAfterSuccess(f, policy) && effects[1] == Notify(Submitted))
            && (!postOk ==> f' == f && effects[1] == Notify(SubmitFailed))
  {
  }

  /** Whatever the policy, submitting again straight after a success is
      stopped by the nature check: nothing is sent twice. */
  lemma ResubmitRejected(policy: ResetPolicy, user: Option<Session.User>, f: Form, ok1: bool, ok2: bool)
    requires StrTruthy(f.natureOfIssue) && StrTruthy(f.note) && f.isEmergency.Some?
    ensures var f1 := HandleSubmit(policy, user, f, ok1).0;
            ok1 ==> HandleSubmit(policy, user, f1, ok2) == (f1, [Notify(NatureMissing)])
  {
  }

  // ---------------------------------------------------------------------
  // The screen as a sequence of user events

  datatype Event =
    | SelectNature(value: string)
    | EditNote(text: string)
    | SwitchChanged(on: bool)
    | OpenDatePicker
    | CloseDatePicker
    | OpenTimePicker
    | CloseTimePicker
    | DateChanged(dateEvent: PickerEvent)
    | TimeChanged(timeEvent: PickerEvent)
    | Submit(postOk: bool)

  function Step(policy: ResetPolicy, user: Option<Session.User>, f: Form, e: Event): (Form, seq<Effect>)
  {
    match e
    case SelectNature(v) => (f.(natureOfIssue := Some(v)), [])
    case EditNote(t) => (f.(note := Some(t)), [])
    case SwitchChanged(b) => (HandleSwitchChange(f, b), [])
    case OpenDatePicker => (f.(showDatePicker := true), [])
    case CloseDatePicker => (f.(showDatePicker := false), [])
    case OpenTimePicker => (f.(showTimePicker := true), [])
    case CloseTimePicker => (f.(showTimePicker := false), [])
    case DateChanged(ev) => (OnChangeDate(f, ev), [])
    case TimeChanged(ev) => (OnChangeTime(f, ev), [])
    case Submit(ok) => HandleSubmit(policy, user, f, ok)
  }

  function Run(policy: ResetPolicy, user: Option<Session.User>, f: Form, events: seq<Event>): (Form, seq<Effect>)
    decreases |events|
  {
    if |events| == 0 then (f, [])
    else
      var (f1, e1) := Step(policy, user, f, events[0]);
      var (f2, e2) := Run(policy, user, f1, events[1..]);
      (f2, e1 + e2)
  }

  /** As written, a renter who reports successfully, then picks a nature
      and types a note without touching the emergency switch, gets no
      report sent: `null.toString()` throws before the POST. */
  lemma ResubmitAfterSuccessThrows(user: Option<Session.User>, f: Form, nature: string, note: string)
    requires StrTruthy(f.natureOfIssue) && StrTruthy(f.note) && f.isEmergency.Some?
    requires nature != "" && note != ""
    ensures var (f', effects) := Run(AsWritten, user, f, [Submit(true), SelectNature(nature), EditNote(note), Submit(true)]);
            && |effects| == 3
            && effects[0].PostReport? && effects[1] == Notify(Submitted)
            && effects[2] == UncaughtTypeError
            && f'.isEmergency.None?
  {
    var f1 := ResetAfterSuccess(f, AsWritten);
    var f2 := f1.(natureOfIssue := Some(nature));
    var f3 := f2.(note := Some(note));
    var sub := HandleSubmit(AsWritten, user, f, true);
    assert sub.0 == f1 && |sub.1| == 2 && sub.1[1] == Notify(Submitted);
    assert HandleSubmit(AsWritten, user, f3, true) == (f3, [UncaughtTypeError]);
    var last := Run(AsWritten, user, f3, [Submit(true)]);
    RunStep(AsWritten, user, f3, [Submit(true)]);
    assert [Submit(true)][1..] == [];
    assert Run(AsWritten, user, f3, []) == (f3, []);
    assert [UncaughtTypeError] + [] == [UncaughtTypeError];
    assert last == (f3, [UncaughtTypeError]);
    var tail2 := [EditNote(note), Submit(true)];
    RunStep(AsWritten, user, f2, tail2);
    assert tail2[1..] == [Submit(true)];
    assert Step(AsWritten, user, f2, tail2[0]) == (f3, []);
    assert [] + last.1 == last.1;
    assert Run(AsWritten, user, f2, tail2) == last;
    var tail1 := [SelectNature(nature), EditNote(note), Submit(true)];
    RunStep(AsWritten, user, f1, tail1);
    assert tail1[1..] == tail2;
    assert Run(AsWritten, user, f1, tail1) == last;
    var events := [Submit(true), SelectNature(nature), EditNote(note), Submit(true)];
    RunStep(AsWritten, user, f, events);
    assert events[1..] == tail1;
    assert Run(AsWritten, user, f, events) == (f3, sub.1 + [UncaughtTypeError]);
  }

  /** One step of a run: the first event's effects come first. */
  lemma RunStep(policy: ResetPolicy, user: Option<Session.User>, f: Form, events: seq<Event>)
    requires |events| > 0
    ensures var (f1, e1) := Step(policy, user, f, events[0]);
            Run(policy, user, f, events) == (Run(policy, user, f1, events[1..]).0, e1 + Run(policy, user, f1, events[1..]).1)
  {
  }

  /** With the flag reset to false, the flag is a boolean in every state
      reachable from the mounted form. */
  predicate FlagIsBoolean(f: Form)
  {
    f.isEmergency.Some?
  }

  lemma StepKeepsFlag(user: Option<Session.User>, f: Form, e: Event)
    requires FlagIsBoolean(f)
    ensures FlagIsBoolean(Step(EmergencyToFalse, user, f, e).0)
    ensures UncaughtTypeError !in Step(EmergencyToFalse, user, f, e).1
  {
  }

  /** With the corrected reset, no sequence of user events from the mounted
      form ever reaches the uncaught TypeError. */
  lemma {:induction false} NeverThrowsWhenReset(user: Option<Session.User>, f: Form, events: seq<Event>)
    requires FlagIsBoolean(f)
    ensures FlagIsBoolean(Run(EmergencyToFalse, user, f, events).0)
    ensures UncaughtTypeError !in Run(EmergencyToFalse, user, f, events).1
    decreases |events|
  {
    if |events| > 0 {
      StepKeepsFlag(user, f, events[0]);
      var (f1, e1) := Step(EmergencyToFalse, user, f, events[0]);
      NeverThrowsWhenReset(user, f1, events[1..]);
    }
  }

  /** With the corrected reset, every submission of a complete form is
      sent, in any reachable state. */
  lemma CompleteFormIsSent(user: Option<Session.User>, f: Form, postOk: bool)
    requires FlagIsBoolean(f) && StrTruthy(f.natureOfIssue) && StrTruthy(f.note)
    ensures HandleSubmit(EmergencyToFalse, user, f, postOk).1[0].PostReport?
  {
  }
}

=== FILE: session.dfy ===
/** The authentication context (`AuthProvider`): a store holding the
    logged-in user, with `login` and `logout` as its only operations. */
module Session {
  import opened Js

  /** The user record the Login screen stores: exactly the eight fields it
      destructures from the login response. Any of them may be missing. */
  datatype User = User(
    email: Option<string>,
    role: Option<string>,
    userId: Option<int>,
    renterId: Option<int>,
    renterFname: Option<string>,
    renterLname: Option<string>,
    rentedVehicleCount: Option<int>,
    upcomingRentCount: Option<int>)

  /** The context value; `user` is `null` when nobody is logged in. */
  datatype Store = Store(user: Option<User>)

  /** `useState(null)`: the store starts empty. */
  function Init(): (s: Store)
    ensures s.user.None?
  {
    Store(None)
  }

  /** `login(userData)`: the store now holds exactly `userData`, whatever
      it held before. */
  function Login(s: Store, u: User): (s': Store)
    ensures s'.user == Some(u)
  {
    Store(Some(u))
  }

  /** `logout()`: the store is empty again. */
  function Logout(s: Store): (s': Store)
    ensures s'.user.None?
  {
    Store(None)
  }

  /** Logging out twice is the same as logging out once. */
  lemma LogoutIdempotent(s: Store)
    ensures Logout(Logout(s)) == Logout(s)
  {
  }

  /** Logging in and then out returns to the initial state, from any state. */
  lemma LoginLogoutIsInit(s: Store, u: User)
    ensures Logout(Login(s, u)) == Init()
  {
  }

  /** A later login replaces an earlier one. */
  lemma LoginReplaces(s: Store, u: User, v: User)
    ensures Login(Login(s, u), v) == Login(s, v)
  {
  }

  // ---------------------------------------------------------------------
  // Histories of store operations

  datatype Op = DoLogin(u: User) | DoLogout

  function Apply(s: Store, op: Op): Store
  {
    match op
    case DoLogin(u) => Login(s, u)
    case DoLogout => Logout(s)
  }

  function Replay(s: Store, ops: seq<Op>): Store
    decreases |ops|
  {
    if |ops| == 0 then s else Replay(Apply(s, ops[0]), ops[1..])
  }

  /** After any history the store holds the user of the last operation if it
      was a login, and nobody if it was a logout; an empty history leaves the
      store as it was. The store keeps no other memory of the past. */
  lemma {:induction false} ReplayLast(s: Store, ops: seq<Op>)
    ensures |ops| == 0 ==> Replay(s, ops) == s
    ensures |ops| > 0 && ops[|ops| - 1].DoLogout? ==> Replay(s, ops).user.None?
    ensures |ops| > 0 && ops[|ops| - 1].DoLogin? ==> Replay(s, ops).user == Some(ops[|ops| - 1].u)
    decreases |ops|
  {
    if |ops| > 0 {
      var t := Apply(s, ops[0]);
      ReplayLast(t, ops[1..]);
      if |ops| > 1 {
        assert ops[1..][|ops[1..]| - 1] == ops[|ops| - 1];
      }
    }
  }

  // ---------------------------------------------------------------------
  // Uses of the store shared by several screens

  /** `user && user.renterId`: the renter id to fetch for, when there is a
      logged-in user whose renter id is truthy (present and not 0). */
  function RenterToFetch(user: Option<User>): (r: Option<int>)
    ensures r.Some? <==> user.Some? && IntTruthy(user.value.renterId)
    ensures r.Some? ==> r.value != 0 && user.value.renterId == Some(r.value)
  {
    if user.Some? && user.value.renterId.Some? && user.value.renterId.value != 0
    then Some(user.value.renterId.value)
    else None
  }

  /** The bottom bar's Logout button, identical on the Home, Booking and
      Report screens. */
  datatype LogoutEffect = Notify(message: string) | Navigate(screen: string)

  function HandleLogout(s: Store): (r: (Store, seq<LogoutEffect>))
    ensures r.0 == Logout(s) && r.0 == Init()
    ensures r.1 == [Notify("Logout Successful."), Navigate("Login")]
  {
    (Logout(s), [Notify("Logout Successful."), Navigate("Login")])
  }
}
